=== FILE: README.md ===
# Race-track solver and case parser, modelled in Dafny

The program reads race-track puzzles from text and solves each one. A puzzle
is a grid with rectangular obstacles, a start cell and an end cell. A vehicle
starts at rest. On every hop it changes each velocity component by at most
one, keeps both components within [-3, 3], and moves by the new velocity. It
must land on a free cell of the grid. The answer is a number of hops, or
"No solution.".

The project models three pieces of the Go code:

- the case provider, which reads the text into cases (`domain.Case`);
- the A* search of the case solver;
- the driver that hands each parsed case to the solver.

Modules:

- `Domain` (domain.dfy): `Node`, `Case` and `Count`, the number of times a
  Go loop with a given bound runs.
- `Text` (text.dfy): decimal printing, as `%d` writes numbers into the
  answers and error messages.
- `CaseSolver` (case_solver.dfy): the direction table, `abs`, `heuristic`
  and `isValid`. It also holds `Solve`, as a loop over a worklist and a
  visited set. It is proved sound (a reported hop count is achieved by a
  legal trajectory) and complete (it says "No solution." only when no legal
  trajectory reaches the end). It is also proved to explore at most
  1 + w·h·49 configurations.
- `CaseProvider` (case_provider.dfy): `Get`, as a set of functions. Each one
  reads the input's lines from a given position. Every error the Go code
  returns is a `ParseError` value. Every panic on a negative length or a
  negative index is a `Crash` value. The allocation limit of `make` is not
  modelled (see "Left out").
- `ProviderLaws` (provider_laws.dfy) covers five properties of the parser:
  - each reader depends only on the lines it consumes;
  - lines after a complete input are rejected;
  - an input cut short reports exactly the missing line, and the case it
    belongs to;
  - a line that does not read reports exactly that line as failing to
    parse, and the case it belongs to;
  - each error message determines the error it reports.
- `ProviderRender` (provider_render.dfy): the inverse of the parser, which
  writes case descriptions as lines. It proves two things:
  - the round trip: the cases read back are exactly the ones described;
  - an obstacle reaching past the grid is reported with its own number and
    its case's number.
- `ProviderExamples` (provider_examples.dfy): the provider's error tests.
  Each input gives the error the test expects, and the expected message
  text.
- `SolverExamples` (solver_examples.dfy): the solver's test inputs. For each
  one the module gives either a witness trajectory or a closed region the
  vehicle cannot leave. Lower bounds come from how fast the vehicle can
  speed up.
- `Pipeline` (pipeline.dfy): the driver, and the grid-layout finding below.

## Model

| member | source | states |
|---|---|---|
| Text.NatToStringRoundTrip | internal/race-track/application/case_solver.go:39 | the decimal text written for a hop count reads back as the same number |
| CaseSolver.Abs | internal/race-track/application/case_solver.go:73-78 | the result is non-negative and equals x or -x |
| CaseSolver.Heuristic | internal/race-track/application/case_solver.go:68-71 | the estimate is non-negative, is zero exactly when the two points coincide, and is at least the distance along each axis |
| CaseSolver.HeuristicIsMetric | internal/race-track/application/case_solver.go:68-71 | the estimate is symmetric and obeys the triangle inequality |
| CaseSolver.DirectionsAreUnitAccelerations | internal/race-track/application/case_solver.go:9-13 | the direction table holds exactly the nine changes of at most one per axis |
| CaseSolver.StepIsTableMove | internal/race-track/application/case_solver.go:43-51 | a hop is legal (velocity changes by at most one per axis, position moves by the new velocity, speed limit kept, free on-grid cell reached) exactly when it is `Accelerate` by some entry of the direction table and passes the speed and `isValid` checks |
| CaseSolver.RunExtends | internal/race-track/application/case_solver.go:49-59 | a trajectory followed by a legal hop is a trajectory one hop longer |
| CaseSolver.RunStaysInClosedSet | internal/race-track/application/case_solver.go:35-63 | a trajectory from rest never leaves a set that contains the start and is closed under hops |
| CaseSolver.ClosedSetBlocks | internal/race-track/application/case_solver.go:35-65 | if such a closed set avoids the end, no trajectory of any length reaches the end |
| CaseSolver.UniverseSize | internal/race-track/application/case_solver.go:28-32 | the configurations the visited set can hold number at most 1 + w·h·49 |
| CaseSolver.HopStaysInUniverse | internal/race-track/application/case_solver.go:46-51 | every legal hop lands on an on-grid configuration within the speed limit |
| CaseSolver.SelectMin | internal/race-track/application/case_solver.go:36 | the entry taken from the worklist has the least hops-plus-estimate of all entries |
| CaseSolver.TryDirection | internal/race-track/application/case_solver.go:44-60 | one direction either pushes a new, unvisited, legal successor one hop further, or its successor is illegal or already visited |
| CaseSolver.Expand | internal/race-track/application/case_solver.go:43-62 | after all nine directions, the visited set has grown by exactly the pushed entries, and it holds every legal successor of the current state |
| CaseSolver.FoundEnd | internal/race-track/application/case_solver.go:38-40 | a popped entry at the end carries a hop count some legal trajectory achieves |
| CaseSolver.Exhausted | internal/race-track/application/case_solver.go:35-65 | when the worklist runs empty, no trajectory reaches the end |
| CaseSolver.Solve | internal/race-track/application/case_solver.go:23-66 | a reported hop count is achieved by a legal trajectory; "No solution." means none exists; start equal to end gives 0 hops; every explored configuration is legal; at most 1 + w·h·49 are pushed |
| CaseSolver.Report | internal/race-track/application/case_solver.go:38-65 | the text is "No solution." exactly for the no-solution answer |
| CaseProvider.NewGrid | internal/race-track/application/case_provider.go:62-65 | the grid has `width` columns of `height` free cells; a negative width, or a negative height with at least one column, panics |
| CaseProvider.MarkColumn | internal/race-track/application/case_provider.go:77-82 | marks exactly the cells (x, y) .. (x, y2); succeeds exactly when they lie on the grid; a cell past the far edge is an out-of-bounds error |
| CaseProvider.MarkRect | internal/race-track/application/case_provider.go:76-83 | marks exactly the inclusive rectangle; succeeds exactly when it is empty or on the grid; a rectangle with non-negative corners reaching past the grid is the out-of-bounds error; a panic needs a negative corner |
| CaseProvider.ReadObstacles | internal/race-track/application/case_provider.go:68-84 | consumes one line per obstacle; on success every consumed line read as four integers, and a cell is blocked exactly when it was blocked before or one of the consumed obstacle lines covers it, and the shape is kept; errors name the right case |
| CaseProvider.ReadGrid | internal/race-track/application/case_provider.go:62-94 | builds the case with the numbers already read and the declared shape, ends after its obstacle lines, each of which read, and blocks exactly the cells those lines cover |
| CaseProvider.ReadObstacleCount | internal/race-track/application/case_provider.go:53-60 | the obstacle-count line is the number stored in the case, the case ends after that many obstacle lines, each of which read, and its grid blocks exactly the cells they cover |
| CaseProvider.ReadPoints | internal/race-track/application/case_provider.go:42-51 | the start and end stored are the four numbers of the points line; the count and the grid come from the lines after it, every obstacle line read, and the grid blocks exactly the cells its obstacle lines cover |
| CaseProvider.ReadCase | internal/race-track/application/case_provider.go:33-94 | the case is the one its lines describe: size, points and obstacle count are the numbers of its first three lines, every obstacle line reads, and the grid, of the declared shape, blocks exactly the cells its obstacle lines cover; it is numbered as given and consumes 3 + count lines |
| CaseProvider.ReadCases | internal/race-track/application/case_provider.go:30-95 | reads exactly the declared number of cases, numbered consecutively and laid out one after another, each described exactly by its own lines (numbers and blocked cells); an error names one of these cases |
| CaseProvider.Get | internal/race-track/application/case_provider.go:16-103 | empty input is the read-count error, and an unparsable first line the parse-count error (both exactly); success returns as many cases as declared, numbered from 1, laid out over all the remaining lines, each described exactly by its own lines; a case error names a declared case |
| ProviderLaws.ObstaclesDetermined | internal/race-track/application/case_provider.go:68-84 | the obstacle reader's result depends only on the lines it consumes |
| ProviderLaws.CaseDetermined | internal/race-track/application/case_provider.go:33-94 | a case's result depends only on the lines it consumes |
| ProviderLaws.CasesDetermined | internal/race-track/application/case_provider.go:32-95 | the cases read depend only on the lines consumed |
| ProviderLaws.CasesFromEach | internal/race-track/application/case_provider.go:32-95 | cases that each read successfully one after another, each from where the previous one ended, are together what the loop over all cases returns |
| ProviderLaws.ObstaclesTruncated | internal/race-track/application/case_provider.go:68-71 | obstacle lines cut before line k give the missing-obstacle error naming the obstacle whose line is line k (j + 1 + k - pos) and the case |
| ProviderLaws.GridTruncated | internal/race-track/application/case_provider.go:62-71 | a grid whose obstacle lines are cut before line k reports obstacle k - pos + 1 of the case as missing |
| ProviderLaws.ObstacleCountTruncated | internal/race-track/application/case_provider.go:53-71 | cut at the count line, the count is missing; cut later, the obstacle whose line is cut is missing |
| ProviderLaws.PointsTruncated | internal/race-track/application/case_provider.go:42-71 | cut at the points line, the points are missing; cut later, the count or the obstacle whose line is cut is missing |
| ProviderLaws.CaseTruncated | internal/race-track/application/case_provider.go:33-71 | a case cut before its line k reports exactly that line as missing: the dimensions, the points, the obstacle count, or obstacle k - pos - 2, with the case's own number |
| ProviderLaws.CasesTruncated | internal/race-track/application/case_provider.go:32-95 | cases cut before line k report the missing line k of the case whose lines hold it, with that case's number |
| ProviderLaws.CutErrorNamesCase | internal/race-track/application/case_provider.go:32-71 | the error of a cut at line k is the missing line k of the case whose line span holds k, numbered by its place among the cases |
| ProviderLaws.ExtraLinesRejected | internal/race-track/application/case_provider.go:97-100 | any lines after a complete input turn success into the extra-data error |
| ProviderLaws.TruncationReportsMissingLine | internal/race-track/application/case_provider.go:34-71 | a complete input cut before line k >= 1 reports exactly line k as missing, as a line of case m + 1, where case m + 1 is the declared case whose lines hold line k |
| ProviderLaws.ObstaclesBadLine | internal/race-track/application/case_provider.go:68-75 | replacing obstacle line k by one that does not read as four integers gives the parse error of obstacle j + 1 + (k - pos), in that case |
| ProviderLaws.GridBadLine | internal/race-track/application/case_provider.go:62-75 | a grid whose obstacle line k does not read reports obstacle k - pos + 1 of the case as failing to parse |
| ProviderLaws.ObstacleCountBadLine | internal/race-track/application/case_provider.go:53-75 | a count line that does not read is the obstacle-count parse error; a later line that does not read is the parse error of its obstacle |
| ProviderLaws.PointsBadLine | internal/race-track/application/case_provider.go:42-75 | a points line that does not read is the points parse error; a later line that does not read is the count's or its obstacle's parse error |
| ProviderLaws.CaseBadLine | internal/race-track/application/case_provider.go:33-75 | a case whose line k does not read as that line reports exactly that line as failing to parse: the dimensions, the points, the obstacle count, or obstacle k - pos - 2, with the case's own number |
| ProviderLaws.CasesBadLine | internal/race-track/application/case_provider.go:32-95 | cases whose line k does not read report the parse error of the same line an input cut there would miss |
| ProviderLaws.BadLineReported | internal/race-track/application/case_provider.go:34-75 | a complete input whose line k >= 1 is replaced by one that does not read as that line reports exactly line k as failing to parse, as a line of case m + 1, the declared case whose lines hold line k |
| ProviderLaws.NegativeWidthPanics | internal/race-track/application/case_provider.go:62 | a case with a negative width panics once its first three lines are read |
| ProviderLaws.FirstCaseNegativeWidth | internal/race-track/application/case_provider.go:30-65 | a first case with a negative width makes the whole read panic rather than return an error |
| ProviderLaws.MessageIdentifiesError | internal/race-track/application/case_provider.go:35-99 | distinct errors have distinct texts: an error message determines the failure, the case number and the obstacle number it reports |
| Text.IntToStringInjective | internal/race-track/application/case_provider.go:35 | distinct numbers print as distinct `%d` texts |
| Text.NumberThenText | internal/race-track/application/case_provider.go:70 | a printed number followed by text that does not start with a digit splits back into that number and that text |
| ProviderExamples.NoInput | internal/race-track/application/case_provider_test.go:156-159 | empty input is the read-count error, with the test's message |
| ProviderExamples.InvalidCount | internal/race-track/application/case_provider_test.go:193-196 | a first line that is not a number is the parse-count error, with the test's message |
| ProviderExamples.IncompleteCase | internal/race-track/application/case_provider_test.go:160-165 | input ending after the dimensions is the missing-points error of case 1 |
| ProviderExamples.NonIntegerCoordinates | internal/race-track/application/case_provider_test.go:197-204 | an unparsable points line is the bad-points error of case 1 |
| ProviderExamples.ExtraDataAfterCases | internal/race-track/application/case_provider_test.go:166-174 | a complete case followed by another line is the extra-data error |
| ProviderExamples.ObstacleOutsideGrid | internal/race-track/application/case_provider_test.go:175-183 | the rectangle running past x = 2 of a 3 by 3 grid is the out-of-bounds error of obstacle 1, case 1 |
| ProviderExamples.NegativeDimensions | internal/race-track/application/case_provider_test.go:184-191 | the input with width -5 panics; it does not give the error the test expects |
| ProviderExamples.MissingPointsMessage | internal/race-track/application/case_provider.go:43-45 | the missing-points message of case 1 is the text the test expects |
| ProviderExamples.BadPointsMessage | internal/race-track/application/case_provider.go:47-49 | the bad-points message of case 1 is the text the test expects |
| ProviderExamples.ExtraDataMessage | internal/race-track/application/case_provider.go:98-100 | the extra-data message is the text the test expects |
| ProviderExamples.OutOfBoundsMessage | internal/race-track/application/case_provider.go:78-80 | the out-of-bounds message of obstacle 1, case 1 is the text the test expects |
| ProviderRender.ObstaclesRoundTrip | internal/race-track/application/case_provider.go:68-84 | reading written in-bounds obstacle lines marks exactly the cells covered by the rectangles |
| ProviderRender.CaseRoundTrip | internal/race-track/application/case_provider.go:33-94 | reading a written case gives exactly the case described |
| ProviderRender.CasesRoundTrip | internal/race-track/application/case_provider.go:32-95 | reading written cases gives exactly the cases described, in order |
| ProviderRender.RoundTrip | internal/race-track/application/case_provider.go:16-103 | reading a written input gives exactly the described cases, numbered from 1, with each rectangle marked |
| ProviderRender.ObstaclesOutOfBounds | internal/race-track/application/case_provider.go:76-80 | the first rectangle reaching past the grid is reported with its own number |
| ProviderRender.CaseOutOfBounds | internal/race-track/application/case_provider.go:68-84 | a case whose obstacle reaches past the grid reports that obstacle |
| ProviderRender.CasesOutOfBounds | internal/race-track/application/case_provider.go:32-95 | the first such case among sensible earlier ones is the one reported |
| ProviderRender.OutOfBoundsReported | internal/race-track/application/case_provider.go:78-79 | the whole read fails with the out-of-bounds error naming that obstacle and that case |
| SolverExamples.RunBounded | internal/race-track/application/case_solver.go:44-49 | after i hops each velocity component is at most min(i, 3) in size, and each coordinate has moved by at most the distance these speeds cover |
| SolverExamples.TooFar | internal/race-track/application/case_solver.go:44-49 | no trajectory of n hops reaches a target further than n hops can cover |
| SolverExamples.SampleOneInSeven | internal/race-track/application/case_solver_test.go:18-32 | the first sample is solved by a seven-hop trajectory around the wall |
| SolverExamples.SampleOneHop | internal/race-track/application/case_solver.go:44-51 | each hop on the first sample moves by its new velocity, changes it by at most one, and lands on the grid, in rows 2 and 3 only in column 0 |
| SolverExamples.SampleOneEntersFirstColumn | internal/race-track/application/case_solver_test.go:18-32 | every trajectory to the bottom row visits column 0, because rows 2 and 3 cannot be jumped from rest |
| SolverExamples.SampleOneFirstColumnLate | internal/race-track/application/case_solver_test.go:18-32 | the first visit to column 0 comes after at least three hops and while moving left |
| SolverExamples.SlowStart | internal/race-track/application/case_solver.go:44-49 | j hops after moving left, the speed to the right is at most j - 1 and the gain to the right at most the distance j - 1 hops from rest cover |
| SolverExamples.SampleOneAtLeastSeven | internal/race-track/application/case_solver_test.go:18-32 | no trajectory of fewer than seven hops solves the first sample |
| SolverExamples.SolveSampleOne | internal/race-track/application/case_solver_test.go:18-32 | the solver answers the first sample with a hop count of at least 7, the count the test expects |
| SolverExamples.SampleTwoUnreachable | internal/race-track/application/case_solver_test.go:33-45 | in the cross of obstacles no trajectory reaches the end |
| SolverExamples.SolveSampleTwo | internal/race-track/application/case_solver_test.go:33-45 | the solver answers "No solution." |
| SolverExamples.BlockedPathUnreachable | internal/race-track/application/case_solver_test.go:69-81 | below a wall row no trajectory reaches the end |
| SolverExamples.SolveBlockedPath | internal/race-track/application/case_solver_test.go:69-81 | the solver answers "No solution." |
| SolverExamples.SingleObstacleInOne | internal/race-track/application/case_solver_test.go:57-68 | one diagonal hop passes the obstacle |
| SolverExamples.SolveSingleObstacle | internal/race-track/application/case_solver_test.go:57-68 | the solver answers with a hop count of at least 1 |
| SolverExamples.CornerToCornerInThree | internal/race-track/application/case_solver_test.go:82-96 | the 5 by 5 diagonal is covered in three hops |
| SolverExamples.SolveCornerToCorner | internal/race-track/application/case_solver_test.go:82-96 | the solver answers with at least 3 hops |
| SolverExamples.LargeGridInEleven | internal/race-track/application/case_solver_test.go:97-111 | the 30 by 30 diagonal is covered in eleven hops |
| SolverExamples.LargeGridNotInTen | internal/race-track/application/case_solver_test.go:97-111 | no trajectory of ten hops or fewer reaches (29, 29) |
| SolverExamples.SolveLargeGrid | internal/race-track/application/case_solver_test.go:97-111 | the solver answers with at least 11 hops |
| SolverExamples.HeuristicNotAdmissible | internal/race-track/application/case_solver.go:68-71 | the estimate at the start of the large grid is 58, while 11 hops suffice |
| SolverExamples.SolveStartIsEnd | internal/race-track/application/case_solver_test.go:112-124 | start equal to end is answered with 0 hops, on the 3 by 3 board and on the 1 by 1 board of "Minimum Grid Size" |
| Pipeline.ProviderGridDiffers | internal/race-track/application/case_provider_test.go:16-39 | the grid the provider builds for the sample differs from the row-first grid its test expects |
| Pipeline.AsWrittenIgnoresObstacle | cmd/main.go:11-37 | passed on as written, the sample's obstacle cell (4, 2) is free to the solver, and a three-hop run goes through it |
| Pipeline.AsWrittenTallGridUnfit | internal/race-track/application/case_provider.go:62-65 | the 1 by 2 case reads back through `Get`, and its grid has one row, so the solver's read of row 1 falls off it |
| Pipeline.NonSquareUnfit | internal/race-track/application/case_solver.go:80-82 | a column-first grid of a non-square board with at least one row and one column does not fit the solver: some on-board cell's row-first read falls off the grid |
| Pipeline.AsWrittenNonSquareUnfit | internal/race-track/application/case_provider.go:62-65 | every case the provider reads whose board is not square has such an on-board cell that the solver's read misses |
| Pipeline.SolverGrid | internal/race-track/application/case_solver.go:80-82 | the corrected grid fits the solver, and its cell [y][x] is the provider's cell [x][y] |
| Pipeline.CorrectedFreeCells | internal/race-track/application/case_solver.go:80-82 | on the corrected grid, `isValid` holds exactly for the cells of the declared board outside every declared obstacle rectangle |
| Pipeline.CorrectedSampleMatchesTest | internal/race-track/application/case_solver_test.go:18-32 | the corrected sample grid is the solver test's grid, and (4, 2) is blocked |
| Pipeline.SolveCase | cmd/main.go:37 | solving a case on the corrected grid is sound and complete with respect to its declared obstacles |
| Pipeline.SolveAll | cmd/main.go:33-40 | every case gets an answer and a report under its own number, each sound and complete on its corrected grid |
| Pipeline.SolveSample | cmd/main.go:11-21 | the corrected driver answers the first sample with at least seven hops |

## Left out

- The concurrency of cmd/main.go (one goroutine per case, a wait group) and
  its printing. `Pipeline.SolveAll` solves the cases in order; the
  goroutines print the same reports in an unspecified order.
- The priority queue of the domain package (`State`, `PriorityQueue`) is not
  part of this model. The worklist is a sequence. `SelectMin` takes an entry
  of least hops-plus-estimate, choosing the first on ties. Go's heap may
  break ties differently. The soundness and completeness of `Solve` do not
  depend on the tie-break.
- The visited map of maps is modelled as a set of (position, velocity)
  pairs. Go creates the map entries for a position before checking the
  velocity. That is bookkeeping only.
- CaseSolver.Solve: does not state that the hop count is the least, as the
  comment at case_solver.go:21 claims. The Manhattan estimate counts cells
  while a hop can cross three (`SolverExamples.HeuristicNotAdmissible`). So
  A* with it does not guarantee the least count, and the model proves only
  that the count is achieved. For the tests that expect a count, the model
  proves that count as a lower bound and gives a trajectory that achieves it
  (`SolverExamples.SolveSampleOne`, `SolverExamples.SolveLargeGrid` and the
  others). It does not prove that the search returns exactly that count.
- CaseSolver.Solve: requires the grid to hold every cell of the declared
  board. On a grid that lacks some cells, Go panics only if the search reads
  a missing cell (case_solver.go:81); a search that never reads one answers
  as usual. For example, the Blocked Path board with its row 2 left out
  answers "No solution.", because row 2 is never read. The model does not
  cover grids with missing cells. The finding below shows the driver can
  hand the solver such a grid.
- Splitting the text into lines (`bufio.Scanner`) and reading integers from
  a line (`fmt.Sscanf`) are library code. The model takes the lines as given
  and the integer reader as a `Scanner` parameter. The round trip assumes
  only that the scanner reads back what a line writer writes.
- The error strings are kept as `CaseProvider.Message`, mapping each error
  value to its text. `ProviderLaws.MessageIdentifiesError` proves that each
  text determines its error. The exact wording is checked only against the
  strings the provider tests expect (`ProviderExamples`).
- Go's `int` is 64 bits. Hop counts, coordinates and counts here are
  unbounded.
- CaseProvider.MarkRect: does not model 64-bit wrap-around of the loop
  counter at case_provider.go:76. For the obstacle line
  `0 9223372036854775807 1 0`, Go's `x++` wraps past the largest int. The
  y range is empty, so no error stops the loop, and Go never returns. The
  model returns `Ok` with nothing marked.
- CaseProvider.NewGrid: does not model the allocation limit of `make`.
  Go's `make([][]bool, width)` and `make([]bool, height)`
  (case_provider.go:62-64) panic on a length too large to allocate, for
  example the dimensions line `1000000000000000 1`. The model returns `Ok`
  for every non-negative length. The limit depends on the platform's
  address space, so it has no fixed value to model.
- CaseProvider.Get: does not model the allocation limit of
  `make([]domain.Case, numTests)` (case_provider.go:30) either. For the
  one-line input `1000000000000000`, Go panics, while the model goes on
  and returns `MissingDimensions(1)`.
- The provider test "Negative dimensions" (case_provider_test.go:184-191)
  expects an "invalid grid dimensions" error. The code has no such check:
  `make` panics on a negative width. The model follows the code
  (`ProviderLaws.FirstCaseNegativeWidth`, `ProviderExamples.NegativeDimensions`).

## Findings

| source | as written | input that shows it | evidently intended | confidence | as-written member | corrected member |
|---|---|---|---|---|---|---|
| internal/race-track/application/case_provider.go:62-65, 81 with case_solver.go:81 and cmd/main.go:37 | the provider fills `grid[x][y]`, and the driver hands that grid to a solver that reads `grid[y][x]`, so square boards reach the solver transposed | the driver's first sample (5 by 5, from (4, 0) to (4, 4), obstacle x 1..4, y 2..3): the obstacle cell (4, 2) is free to the solver, and a 3-hop run passes through it; the tests expect 7 hops | the row-first grid both test files expect, with the obstacle cells blocked | high (not executed) | Pipeline.AsWrittenIgnoresObstacle | Pipeline.CorrectedSampleMatchesTest |
| internal/race-track/application/case_provider.go:62-65 with case_solver.go:81 | a board that is not square yields a grid in which some on-board cell is out of the solver's reach: too few rows when it is taller than wide, too short rows when it is wider than tall | a 1 by 2 case from (0, 0) to (0, 1): the provider's grid has one row, and the solver's read of row 1 indexes past it (a panic in Go); a 2 by 1 case from (0, 0) fails the same way at `grid[0][1]` | every on-board cell readable by the solver | high (not executed) | Pipeline.AsWrittenNonSquareUnfit | Pipeline.SolverGrid |

=== FILE: case_provider.dfy ===
/** The text-to-cases parser (internal/race-track/application/case_provider.go).

    The input is read line by line: a test-case count, then for each case a
    line `width height`, a line `startX startY endX endY`, an obstacle count
    and that many lines `x1 x2 y1 y2`, each an inclusive rectangle of
    obstacle cells. The grid of a case is built column-first, `grid[x][y]`.
    Splitting the text into lines and reading integers from a line are
    library work and appear here as given lines and a `Scanner` parameter.

    Each reading function takes the input's lines and the position of the
    first line it is to read and, on success, returns what it built together
    with the position of the first line it left unread. */
module CaseProvider {
  import opened Domain
  import Text

  datatype Option<T> = None | Some(value: T)

  /** Reads `k` space-separated integers from the start of a line, as
      `fmt.Sscanf` does with `k` `%d` verbs; None when that fails. */
  type Scanner = (string, nat) -> Option<seq<int>>

  /** The error values `Get` returns; `testCase` and `obstacle` count from 1. */
  datatype ParseError =
    | ReadCountFailed
    | ParseCountFailed
    | MissingDimensions(testCase: int)
    | BadDimensions(testCase: int)
    | MissingPoints(testCase: int)
    | BadPoints(testCase: int)
    | MissingObstacleCount(testCase: int)
    | BadObstacleCount(testCase: int)
    | MissingObstacle(obstacle: int, testCase: int)
    | BadObstacle(obstacle: int, testCase: int)
    | ObstacleOutOfBounds(obstacle: int, testCase: int)
    | ExtraData
  {
    /** The error is about one test case (and so names it). */
    predicate InCase()
    {
      !(ReadCountFailed? || ParseCountFailed? || ExtraData?)
    }

    /** The input ended while a line of a case was still expected. */
    predicate IsMissingLine()
    {
      MissingDimensions? || MissingPoints? || MissingObstacleCount? || MissingObstacle?
    }
  }

  /** The panics of the Go code that the model follows: `make` with a
      negative length, and a grid index below zero. */
  datatype Panic = NegativeLength | IndexOutOfRange

  /** The result of a reading step. An error carries no cases: parsing is all
      or nothing. */
  datatype Outcome<T> = Ok(value: T) | Err(error: ParseError) | Crash(panic: Panic)
  {
    predicate IsFailure()
    {
      !Ok?
    }

    function PropagateFailure<U>(): Outcome<U>
      requires !Ok?
    {
      if Err? then Err(error) else Crash(panic)
    }

    function Extract(): T
      requires Ok?
    {
      value
    }
  }

  type Grid = seq<seq<bool>>

  /** `width` columns of `height` cells each. */
  predicate Shaped(grid: Grid, width: int, height: int)
  {
    && |grid| == width
    && forall x :: 0 <= x < |grid| ==> |grid[x]| == height
  }

  /** The `k` integers of a line, when the scanner reads exactly `k`. */
  function Fields(scan: Scanner, line: string, k: nat): (r: Option<seq<int>>)
    ensures r.Some? ==> |r.value| == k && scan(line, k) == r
  {
    match scan(line, k)
    case Some(xs) => if |xs| == k then Some(xs) else None
    case None => None
  }

  // ---------------------------------------------------------------------
  // The obstacle grid
  // ---------------------------------------------------------------------

  /** The empty grid of a case: `width` columns of `height` free cells. A
      negative width, or a negative height with at least one column, makes
      `make` panic. */
  function NewGrid(width: int, height: int): (r: Outcome<Grid>)
    ensures !r.Err?
    ensures r.Ok? <==> 0 <= width && (width == 0 || 0 <= height)
    ensures r.Ok? ==> Shaped(r.value, width, height)
    ensures r.Ok? ==> forall x, y :: 0 <= x < width && 0 <= y < height ==> !r.value[x][y]
  {
    if width < 0 || (width > 0 && height < 0) then Crash(NegativeLength)
    else if width == 0 then Ok([])
    else Ok(seq(width, _ => seq(height, _ => false)))
  }

  /** Whether cell (x, y) lies in the inclusive rectangle [x1, x2] by [y1, y2]. */
  predicate InRect(x1: int, x2: int, y1: int, y2: int, x: int, y: int)
  {
    x1 <= x <= x2 && y1 <= y <= y2
  }

  /** One cell of an obstacle rectangle: an error when it lies beyond the
      grid's far edges, a panic when it lies before its near edges, and
      otherwise the grid with that cell marked. */
  function MarkCell(grid: Grid, width: int, height: int, x: int, y: int,
                    obstacle: int, testCase: int): (r: Outcome<Grid>)
    requires Shaped(grid, width, height)
  {
    if x >= width || y >= height then Err(ObstacleOutOfBounds(obstacle, testCase))
    else if x < 0 || y < 0 then Crash(IndexOutOfRange)
    else Ok(grid[x := grid[x][y := true]])
  }

  /** Cells (x, y) .. (x, y2) of a rectangle, in increasing y. */
  function MarkColumn(grid: Grid, width: int, height: int, x: int, y: int, y2: int,
                      obstacle: int, testCase: int): (r: Outcome<Grid>)
    requires Shaped(grid, width, height)
    ensures r.Ok? <==> (y > y2 || (0 <= x < width && 0 <= y && y2 < height))
    ensures r.Ok? ==> Shaped(r.value, width, height)
    ensures r.Ok? ==> forall a, b :: 0 <= a < width && 0 <= b < height ==>
      r.value[a][b] == (grid[a][b] || (a == x && y <= b <= y2))
    ensures r.Err? ==> r.error == ObstacleOutOfBounds(obstacle, testCase)
    ensures 0 <= x && 0 <= y <= y2 ==> (r.Err? <==> (x >= width || y2 >= height))
    decreases y2 - y
  {
    if y > y2 then Ok(grid)
    else
      var g :- MarkCell(grid, width, height, x, y, obstacle, testCase);
      MarkColumn(g, width, height, x, y + 1, y2, obstacle, testCase)
  }

  /** Every cell of the rectangle [x, x2] by [y1, y2], column by column. It
      succeeds exactly when the rectangle is empty or lies on the grid, and
      then marks exactly its cells. A rectangle with non-negative corners that
      reaches past the grid is reported as out of bounds. */
  function MarkRect(grid: Grid, width: int, height: int, x: int, x2: int, y1: int, y2: int,
                    obstacle: int, testCase: int): (r: Outcome<Grid>)
    requires Shaped(grid, width, height)
    ensures r.Ok? <==> (x > x2 || y1 > y2 || (0 <= x && x2 < width && 0 <= y1 && y2 < height))
    ensures r.Ok? ==> Shaped(r.value, width, height)
    ensures r.Ok? ==> forall a, b :: 0 <= a < width && 0 <= b < height ==>
      r.value[a][b] == (grid[a][b] || InRect(x, x2, y1, y2, a, b))
    ensures r.Err? ==> r.error == ObstacleOutOfBounds(obstacle, testCase)
    ensures 0 <= x <= x2 && 0 <= y1 <= y2 ==> (r.Err? <==> (x2 >= width || y2 >= height))
    ensures r.Crash? ==> x < 0 || y1 < 0
    decreases x2 - x
  {
    if x > x2 then Ok(grid)
    else
      var g :- MarkColumn(grid, width, height, x, y1, y2, obstacle, testCase);
      MarkRect(g, width, height, x + 1, x2, y1, y2, obstacle, testCase)
  }

  // ---------------------------------------------------------------------
  // What the lines describe
  // ---------------------------------------------------------------------

  /** The line, read as an obstacle line `x1 x2 y1 y2`, covers cell (x, y). */
  predicate RectCovers(scan: Scanner, line: string, x: int, y: int)
  {
    match Fields(scan, line, 4)
    case Some(f) => InRect(f[0], f[1], f[2], f[3], x, y)
    case None => false
  }

  /** One of the obstacle lines `from` .. `to` - 1 covers cell (x, y). */
  predicate LinesCover(scan: Scanner, lines: seq<string>, from: nat, to: nat, x: int, y: int)
  {
    exists p :: from <= p < to && p < |lines| && RectCovers(scan, lines[p], x, y)
  }

  /** Lines `from` .. `to` - 1 are all present and each reads as an
      obstacle line of four integers. */
  predicate ObstacleLinesScan(scan: Scanner, lines: seq<string>, from: nat, to: nat)
  {
    forall p :: from <= p < to ==> p < |lines| && Fields(scan, lines[p], 4).Some?
  }

  /** The lines a case takes: dimensions, points, obstacle count, obstacles. */
  function CaseLines(c: Case): nat
  {
    3 + Count(c.numObstacles)
  }

  /** Lines `pos` .. `pos + CaseLines(c)` - 1 hold case `c`: its dimensions,
      its start and end, its obstacle count, then that many obstacle lines,
      each of which reads, and its grid, of the declared shape, has blocked exactly the cells
      those lines cover. */
  predicate Describes(scan: Scanner, lines: seq<string>, pos: nat, c: Case)
  {
    && pos + CaseLines(c) <= |lines|
    && Fields(scan, lines[pos], 2) == Some([c.width, c.height])
    && Fields(scan, lines[pos + 1], 4) == Some([c.start.x, c.start.y, c.end.x, c.end.y])
    && Fields(scan, lines[pos + 2], 1) == Some([c.numObstacles])
    && ObstacleLinesScan(scan, lines, pos + 3, pos + CaseLines(c))
    && Shaped(c.grid, c.width, c.height)
    && forall x, y :: 0 <= x < c.width && 0 <= y < c.height ==>
         c.grid[x][y] == LinesCover(scan, lines, pos + 3, pos + CaseLines(c), x, y)
  }

  /** Lines `pos` .. `end` - 1 hold `cases`, one after another. */
  predicate LaidOut(scan: Scanner, lines: seq<string>, pos: nat, cases: seq<Case>, end: nat)
    decreases |cases|
  {
    if cases == [] then end == pos
    else Describes(scan, lines, pos, cases[0]) && LaidOut(scan, lines, pos + CaseLines(cases[0]), cases[1..], end)
  }

  // ---------------------------------------------------------------------
  // Reading the lines
  // ---------------------------------------------------------------------

  /** Obstacle lines j + 1 .. count of case `testCase`, starting at line
      `pos`, each marked on the grid; on success, the grid and the position
      after the last obstacle line. */
  function ReadObstacles(scan: Scanner, lines: seq<string>, pos: nat, grid: Grid, width: int, height: int,
                         j: int, count: int, testCase: int): (r: Outcome<(Grid, nat)>)
    requires Shaped(grid, width, height)
    ensures r.Ok? ==> Shaped(r.value.0, width, height)
    ensures r.Ok? ==> r.value.1 == pos + Count(count - j) && (r.value.1 == pos || r.value.1 <= |lines|)
    ensures r.Ok? ==> ObstacleLinesScan(scan, lines, pos, r.value.1)
    ensures r.Ok? ==> forall a, b :: 0 <= a < width && 0 <= b < height ==>
      r.value.0[a][b] == (grid[a][b] || LinesCover(scan, lines, pos, r.value.1, a, b))
    ensures r.Err? ==> r.error.InCase() && r.error.testCase == testCase
    decreases count - j
  {
    if j >= count then Ok((grid, pos))
    else if pos >= |lines| then Err(MissingObstacle(j + 1, testCase))
    else
      match Fields(scan, lines[pos], 4)
      case None => Err(BadObstacle(j + 1, testCase))
      case Some(f) =>
        var g :- MarkRect(grid, width, height, f[0], f[1], f[2], f[3], j + 1, testCase);
        ReadObstacles(scan, lines, pos + 1, g, width, height, j + 1, count, testCase)
  }

  /** The grid of a case whose first three lines have been read: a fresh
      grid of the declared shape, then its obstacle lines. */
  function ReadGrid(scan: Scanner, lines: seq<string>, pos: nat, testCase: int, width: int, height: int,
                    start: Node, end: Node, numObstacles: int): (r: Outcome<(Case, nat)>)
    ensures r.Ok? ==>
      var c := r.value.0;
      && c == Case(testCase, width, height, c.grid, start, end, numObstacles)
      && Shaped(c.grid, width, height)
      && r.value.1 == pos + Count(numObstacles) && (r.value.1 == pos || r.value.1 <= |lines|)
      && ObstacleLinesScan(scan, lines, pos, r.value.1)
      && forall x, y :: 0 <= x < width && 0 <= y < height ==>
           c.grid[x][y] == LinesCover(scan, lines, pos, r.value.1, x, y)
    ensures r.Err? ==> r.error.InCase() && r.error.testCase == testCase
  {
    var grid :- NewGrid(width, height);
    var obs :- ReadObstacles(scan, lines, pos, grid, width, height, 0, numObstacles, testCase);
    Ok((Case(testCase, width, height, obs.0, start, end, numObstacles), obs.1))
  }

  /** The obstacle-count line of a case, then its grid. */
  function ReadObstacleCount(scan: Scanner, lines: seq<string>, pos: nat, testCase: int, width: int, height: int,
                             start: Node, end: Node): (r: Outcome<(Case, nat)>)
    ensures r.Ok? ==>
      var c := r.value.0;
      && r.value.1 == pos + 1 + Count(c.numObstacles) <= |lines|
      && Fields(scan, lines[pos], 1) == Some([c.numObstacles])
      && ObstacleLinesScan(scan, lines, pos + 1, r.value.1)
      && c == Case(testCase, width, height, c.grid, start, end, c.numObstacles)
      && Shaped(c.grid, width, height)
      && forall x, y :: 0 <= x < width && 0 <= y < height ==>
           c.grid[x][y] == LinesCover(scan, lines, pos + 1, r.value.1, x, y)
    ensures r.Err? ==> r.error.InCase() && r.error.testCase == testCase
  {
    if pos >= |lines| then Err(MissingObstacleCount(testCase))
    else
      match Fields(scan, lines[pos], 1)
      case None => Err(BadObstacleCount(testCase))
      case Some(cnt) =>
        assert cnt == [cnt[0]];
        ReadGrid(scan, lines, pos + 1, testCase, width, height, start, end, cnt[0])
  }

  /** The start-and-end line of a case, then the rest of it. */
  function ReadPoints(scan: Scanner, lines: seq<string>, pos: nat, testCase: int, width: int, height: int)
    : (r: Outcome<(Case, nat)>)
    ensures r.Ok? ==>
      var c := r.value.0;
      && r.value.1 == pos + 2 + Count(c.numObstacles) <= |lines|
      && Fields(scan, lines[pos], 4) == Some([c.start.x, c.start.y, c.end.x, c.end.y])
      && Fields(scan, lines[pos + 1], 1) == Some([c.numObstacles])
      && ObstacleLinesScan(scan, lines, pos + 2, r.value.1)
      && c.id == testCase && c.width == width && c.height == height
      && Shaped(c.grid, width, height)
      && forall x, y :: 0 <= x < width && 0 <= y < height ==>
           c.grid[x][y] == LinesCover(scan, lines, pos + 2, r.value.1, x, y)
    ensures r.Err? ==> r.error.InCase() && r.error.testCase == testCase
  {
    if pos >= |lines| then Err(MissingPoints(testCase))
    else
      match Fields(scan, lines[pos], 4)
      case None => Err(BadPoints(testCase))
      case Some(pts) =>
        assert pts == [pts[0], pts[1], pts[2], pts[3]];
        ReadObstacleCount(scan, lines, pos + 1, testCase, width, height, Node(pts[0], pts[1]), Node(pts[2], pts[3]))
  }

  /** One test case, numbered `testCase`, starting at line `pos`. On success
      the case is the one its lines describe, and the position returned is
      just past its last obstacle line. */
  function ReadCase(scan: Scanner, lines: seq<string>, pos: nat, testCase: int): (r: Outcome<(Case, nat)>)
    ensures r.Ok? ==>
      && Describes(scan, lines, pos, r.value.0)
      && r.value.0.id == testCase
      && r.value.1 == pos + CaseLines(r.value.0)
    ensures r.Err? ==> r.error.InCase() && r.error.testCase == testCase
  {
    if pos >= |lines| then Err(MissingDimensions(testCase))
    else
      match Fields(scan, lines[pos], 2)
      case None => Err(BadDimensions(testCase))
      case Some(dims) =>
        assert dims == [dims[0], dims[1]];
        ReadPoints(scan, lines, pos + 1, testCase, dims[0], dims[1])
  }

  /** Test cases i + 1 .. n, in order, starting at line `pos`. */
  function ReadCases(scan: Scanner, lines: seq<string>, pos: nat, i: int, n: int): (r: Outcome<(seq<Case>, nat)>)
    ensures r.Ok? ==> |r.value.0| == Count(n - i)
    ensures r.Ok? ==> forall k :: 0 <= k < |r.value.0| ==>
      r.value.0[k].id == i + k + 1
    ensures r.Ok? ==> LaidOut(scan, lines, pos, r.value.0, r.value.1)
    ensures r.Ok? ==> pos <= r.value.1 && (r.value.1 == pos || r.value.1 <= |lines|)
    ensures r.Err? ==> r.error.InCase() && i < r.error.testCase <= n
    decreases n - i
  {
    if i >= n then Ok(([], pos))
    else
      var first :- ReadCase(scan, lines, pos, i + 1);
      var others :- ReadCases(scan, lines, first.1, i + 1, n);
      Ok(([first.0] + others.0, others.1))
  }

  /** The whole input. On success there are exactly as many cases as the
      first line declares, numbered 1, 2, ... in input order, each described
      by its lines (its numbers and exactly the cells its obstacle lines
      cover), and no line is left over. */
  function Get(scan: Scanner, lines: seq<string>): (r: Outcome<seq<Case>>)
    ensures r == Err(ReadCountFailed) <==> |lines| == 0
    ensures r == Err(ParseCountFailed) <==> |lines| >= 1 && Fields(scan, lines[0], 1).None?
    ensures r.Ok? ==>
      && |lines| >= 1
      && Fields(scan, lines[0], 1).Some?
      && |r.value| == Fields(scan, lines[0], 1).value[0]
    ensures r.Ok? ==> forall k :: 0 <= k < |r.value| ==>
      r.value[k].id == k + 1
    ensures r.Ok? ==> LaidOut(scan, lines, 1, r.value, |lines|)
    ensures r.Err? && r.error.InCase() ==>
      && |lines| >= 1
      && Fields(scan, lines[0], 1).Some?
      && 1 <= r.error.testCase <= Fields(scan, lines[0], 1).value[0]
  {
    if |lines| == 0 then Err(ReadCountFailed)
    else
      match Fields(scan, lines[0], 1)
      case None => Err(ParseCountFailed)
      case Some(f) =>
        var numTests := f[0];
        if numTests < 0 then Crash(NegativeLength)
        else
          var parsed :- ReadCases(scan, lines, 1, 0, numTests);
          if parsed.1 < |lines| then Err(ExtraData) else Ok(parsed.0)
  }

  /** The phrases the error texts share. */
  const NotEnough := "not enough information for "
  const FailedToParse := "failed to parse "

  /** The text of each error, as the source formats it. */
  function Message(e: ParseError): string
  {
    match e
    case ReadCountFailed => "failed to read number of test cases"
    case ParseCountFailed => FailedToParse + "number of test cases"
    case MissingDimensions(c) => NotEnough + "test case " + Text.IntToString(c) + ": missing width and height"
    case BadDimensions(c) => FailedToParse + "width and height for test case " + Text.IntToString(c)
    case MissingPoints(c) => NotEnough + "test case " + Text.IntToString(c) + ": missing start and end points"
    case BadPoints(c) => FailedToParse + "start and end points for test case " + Text.IntToString(c)
    case MissingObstacleCount(c) =>
      NotEnough + "test case " + Text.IntToString(c) + ": missing number of obstacles"
    case BadObstacleCount(c) => FailedToParse + "number of obstacles for test case " + Text.IntToString(c)
    case MissingObstacle(j, c) =>
      NotEnough + "obstacle " + Text.IntToString(j) + " in test case " + Text.IntToString(c)
    case BadObstacle(j, c) =>
      FailedToParse + "obstacle " + Text.IntToString(j) + " for test case " + Text.IntToString(c)
    case ObstacleOutOfBounds(j, c) =>
      "obstacle " + Text.IntToString(j) + " for test case " + Text.IntToString(c) + " is out of grid bounds"
    case ExtraData => "extra data found after " + "the declared number of test cases"
  }
}

=== FILE: case_solver.dfy ===
/** The race-track search (internal/race-track/application/case_solver.go).

    A vehicle state is a position and a velocity. Each hop changes the
    velocity by one of nine unit accelerations, keeps both components within
    [-3, 3], and then moves the position by the new velocity; the cell reached
    must lie on the grid and be free. `Solve` explores these states from rest
    at `start` with a worklist and a visited set, and answers with a hop count
    or "no solution". */
module CaseSolver {
  import opened Domain
  import Text

  /** Largest speed along either axis. */
  const MaxSpeed: int := 3

  /** The nine velocity changes tried from every state, in source order. */
  const Directions: seq<Node> := [
    Node(-1, -1), Node(-1, 0), Node(-1, 1),
    Node(0, -1), Node(0, 0), Node(0, 1),
    Node(1, -1), Node(1, 0), Node(1, 1)]

  /** A position and a velocity: the key of the visited set. */
  datatype Config = Config(point: Node, velocity: Node)

  /** A worklist entry: a configuration, the hops taken to reach it and its
      distance estimate to the goal. */
  datatype State = State(point: Node, velocity: Node, hops: nat, heuristic: int)
  {
    function Key(): Config
    {
      Config(point, velocity)
    }

    /** The worklist pops the entry with the least estimated total cost. */
    function Priority(): int
    {
      hops + heuristic
    }
  }

  /** What `Solve` reports: "Optimal solution takes n hops." or "No solution.". */
  datatype Answer = Hops(n: nat) | NoSolution

  // ---------------------------------------------------------------------
  // Distance estimate
  // ---------------------------------------------------------------------

  function Abs(x: int): (r: int)
    ensures r >= 0
    ensures r == x || r == -x
  {
    if x < 0 then -x else x
  }

  /** Manhattan distance between two cells. */
  function Heuristic(first: Node, second: Node): (r: int)
    ensures r >= 0
    ensures r == 0 <==> first == second
    ensures r >= Abs(first.x - second.x) && r >= Abs(first.y - second.y)
  {
    Abs(first.x - second.x) + Abs(first.y - second.y)
  }

  /** The estimate is a metric on cells: symmetric and obeying the triangle
      inequality. */
  lemma HeuristicIsMetric(a: Node, b: Node, c: Node)
    ensures Heuristic(a, b) == Heuristic(b, a)
    ensures Heuristic(a, c) <= Heuristic(a, b) + Heuristic(b, c)
  {
  }

  // ---------------------------------------------------------------------
  // The move relation
  // ---------------------------------------------------------------------

  /** The solver indexes the grid row-first, `grid[y][x]`; this is what it
      needs for every in-bounds lookup to succeed. */
  predicate Fits(grid: seq<seq<bool>>, width: int, height: int)
  {
    && height <= |grid|
    && forall y :: 0 <= y < height ==> width <= |grid[y]|
  }

  /** A cell the vehicle may occupy: on the grid and not an obstacle. */
  predicate IsValid(x: int, y: int, width: int, height: int, grid: seq<seq<bool>>)
    requires Fits(grid, width, height)
  {
    0 <= x < width && 0 <= y < height && !grid[y][x]
  }

  predicate SpeedOk(v: Node)
  {
    -MaxSpeed <= v.x <= MaxSpeed && -MaxSpeed <= v.y <= MaxSpeed
  }

  /** The configuration reached by changing the velocity by `d` and then
      moving by the new velocity. */
  function Accelerate(c: Config, d: Node): Config
  {
    var v := Add(c.velocity, d);
    Config(Add(c.point, v), v)
  }

  /** One legal hop, stated without the direction table: the velocity changes
      by at most one per axis, stays within the speed limit, the position moves
      by the new velocity, and the cell reached is free. */
  predicate Step(grid: seq<seq<bool>>, width: int, height: int, c: Config, t: Config)
    requires Fits(grid, width, height)
  {
    && Abs(t.velocity.x - c.velocity.x) <= 1
    && Abs(t.velocity.y - c.velocity.y) <= 1
    && SpeedOk(t.velocity)
    && t.point == Add(c.point, t.velocity)
    && IsValid(t.point.x, t.point.y, width, height, grid)
  }

  /** The direction table holds exactly the nine unit accelerations,
      including the zero one. */
  lemma DirectionsAreUnitAccelerations(d: Node)
    ensures d in Directions <==> (-1 <= d.x <= 1 && -1 <= d.y <= 1)
  {
    if -1 <= d.x <= 1 && -1 <= d.y <= 1 {
      assert d == Directions[3 * (d.x + 1) + (d.y + 1)];
    }
  }

  /** A hop taken through the table is a `Step`, and every `Step` is a hop
      through some entry of the table. */
  lemma StepIsTableMove(grid: seq<seq<bool>>, width: int, height: int, c: Config, t: Config)
    requires Fits(grid, width, height)
    ensures Step(grid, width, height, c, t) <==>
      exists k :: 0 <= k < |Directions|
        && t == Accelerate(c, Directions[k])
        && SpeedOk(t.velocity)
        && IsValid(t.point.x, t.point.y, width, height, grid)
  {
    var d := Node(t.velocity.x - c.velocity.x, t.velocity.y - c.velocity.y);
    if Step(grid, width, height, c, t) {
      DirectionsAreUnitAccelerations(d);
      var k :| 0 <= k < |Directions| && Directions[k] == d;
      assert t == Accelerate(c, Directions[k]);
    }
  }

  // ---------------------------------------------------------------------
  // Trajectories
  // ---------------------------------------------------------------------

  /** The configuration the search starts from: at `start`, at rest. */
  function Initial(start: Node): Config
  {
    Config(start, Node(0, 0))
  }

  /** A legal trajectory from rest at `start`: every consecutive pair is a hop. */
  ghost predicate IsRun(grid: seq<seq<bool>>, width: int, height: int, start: Node, path: seq<Config>)
    requires Fits(grid, width, height)
  {
    && |path| >= 1
    && path[0] == Initial(start)
    && forall i :: 0 <= i < |path| - 1 ==> Step(grid, width, height, path[i], path[i + 1])
  }

  /** Some legal trajectory of exactly `n` hops from rest at `start` ends on `end`. */
  ghost predicate ReachesIn(grid: seq<seq<bool>>, width: int, height: int, start: Node, end: Node, n: nat)
    requires Fits(grid, width, height)
  {
    exists path: seq<Config> :: IsRun(grid, width, height, start, path) && |path| == n + 1 && path[n].point == end
  }

  /** Appending a hop to a trajectory gives a trajectory one hop longer. */
  lemma RunExtends(grid: seq<seq<bool>>, width: int, height: int, start: Node, path: seq<Config>, t: Config)
    requires Fits(grid, width, height)
    requires IsRun(grid, width, height, start, path)
    requires Step(grid, width, height, path[|path| - 1], t)
    ensures IsRun(grid, width, height, start, path + [t])
  {
    var p := path + [t];
    forall i | 0 <= i < |p| - 1
      ensures Step(grid, width, height, p[i], p[i + 1])
    {
      if i < |path| - 1 {
        assert p[i] == path[i] && p[i + 1] == path[i + 1];
      }
    }
  }

  /** A trajectory never leaves a set that holds the initial configuration
      and is closed under hops. */
  lemma RunStaysInClosedSet(grid: seq<seq<bool>>, width: int, height: int, start: Node,
                            s: set<Config>, path: seq<Config>)
    requires Fits(grid, width, height)
    requires Initial(start) in s
    requires forall c, t :: c in s && Step(grid, width, height, c, t) ==> t in s
    requires IsRun(grid, width, height, start, path)
    ensures forall i :: 0 <= i < |path| ==> path[i] in s
  {
    var i := 1;
    while i < |path|
      invariant 1 <= i <= |path|
      invariant forall j :: 0 <= j < i ==> path[j] in s
    {
      assert Step(grid, width, height, path[i - 1], path[i]);
      i := i + 1;
    }
  }

  /** If a hop-closed set holds the initial configuration and none of its
      members stands on `end`, no trajectory of any length reaches `end`.
      This is the argument behind "No solution." */
  lemma ClosedSetBlocks(grid: seq<seq<bool>>, width: int, height: int, start: Node, end: Node,
                        s: set<Config>)
    requires Fits(grid, width, height)
    requires Initial(start) in s
    requires forall c, t :: c in s && Step(grid, width, height, c, t) ==> t in s
    requires forall c :: c in s ==> c.point != end
    ensures forall n: nat :: !ReachesIn(grid, width, height, start, end, n)
  {
    forall path: seq<Config> | IsRun(grid, width, height, start, path)
      ensures path[|path| - 1].point != end
    {
      RunStaysInClosedSet(grid, width, height, start, s, path);
    }
  }

  // ---------------------------------------------------------------------
  // The finite state space
  // ---------------------------------------------------------------------

  /** The seven velocities with a given x component. */
  function VelocityColumn(vx: int): (r: seq<Node>)
    ensures |r| == 7
    ensures forall vy :: -MaxSpeed <= vy <= MaxSpeed ==> Node(vx, vy) in r
  {
    var r := seq(7, j => Node(vx, j - MaxSpeed));
    assert forall vy :: -MaxSpeed <= vy <= MaxSpeed ==> r[vy + MaxSpeed] == Node(vx, vy);
    r
  }

  /** All 49 velocities within the speed limit. */
  function Velocities(): (r: seq<Node>)
    ensures |r| == 49
    ensures forall v :: SpeedOk(v) ==> v in r
  {
    VelocityColumn(-3) + VelocityColumn(-2) + VelocityColumn(-1) + VelocityColumn(0)
    + VelocityColumn(1) + VelocityColumn(2) + VelocityColumn(3)
  }

  /** Every speed-limited configuration at cell `p`. */
  function ConfigsAt(p: Node): (r: seq<Config>)
    ensures |r| == 49
    ensures forall v :: SpeedOk(v) ==> Config(p, v) in r
  {
    var vs := Velocities();
    var r := seq(|vs|, k requires 0 <= k < |vs| => Config(p, vs[k]));
    forall v | SpeedOk(v)
      ensures Config(p, v) in r
    {
      var k :| 0 <= k < |vs| && vs[k] == v;
      assert r[k] == Config(p, v);
    }
    r
  }

  /** Every speed-limited configuration on cells (0, y) .. (w - 1, y). */
  function RowConfigs(y: int, w: nat): (r: seq<Config>)
    ensures |r| == w * 49
    ensures forall c: Config :: 0 <= c.point.x < w && c.point.y == y && SpeedOk(c.velocity) ==> c in r
  {
    if w == 0 then []
    else
      var r := RowConfigs(y, w - 1) + ConfigsAt(Node(w - 1, y));
      assert forall c: Config :: c.point.x == w - 1 && c.point.y == y && SpeedOk(c.velocity) ==>
        c == Config(Node(w - 1, y), c.velocity);
      r
  }

  /** Every speed-limited configuration on a `w` by `h` grid. */
  function GridConfigs(w: nat, h: nat): (r: seq<Config>)
    ensures |r| == h * (w * 49)
    ensures forall c: Config :: 0 <= c.point.x < w && 0 <= c.point.y < h && SpeedOk(c.velocity) ==> c in r
  {
    if h == 0 then [] else GridConfigs(w, h - 1) + RowConfigs(h - 1, w)
  }

  /** Every configuration the search can ever hold: the initial one and the
      speed-limited ones on cells of the grid, free or not. */
  function Universe(start: Node, width: int, height: int): set<Config>
  {
    {Initial(start)} + set c | c in GridConfigs(Count(width), Count(height))
  }

  lemma SetOfSeqSize<T>(s: seq<T>)
    ensures |set x | x in s| <= |s|
  {
    if |s| > 0 {
      var init := s[..|s| - 1];
      SetOfSeqSize(init);
      assert (set x | x in s) == (set x | x in init) + {s[|s| - 1]};
    }
  }

  lemma SubsetSize<T>(a: set<T>, b: set<T>)
    requires a <= b
    ensures |a| <= |b|
  {
    assert b == a + (b - a);
  }

  /** The state space is finite: at most one configuration per cell and
      speed-limited velocity, plus the initial one. */
  lemma UniverseSize(start: Node, width: int, height: int)
    ensures |Universe(start, width, height)| <= 1 + Count(width) * Count(height) * 49
  {
    var cs := GridConfigs(Count(width), Count(height));
    SetOfSeqSize(cs);
    assert Count(height) * (Count(width) * 49) == Count(width) * Count(height) * 49;
  }

  lemma HopStaysInUniverse(grid: seq<seq<bool>>, width: int, height: int, start: Node, c: Config, t: Config)
    requires Fits(grid, width, height)
    requires Step(grid, width, height, c, t)
    ensures t in Universe(start, width, height)
  {
    assert t in GridConfigs(Count(width), Count(height));
  }

  // ---------------------------------------------------------------------
  // The search
  // ---------------------------------------------------------------------

  function Keys(q: seq<State>): set<Config>
  {
    set s | s in q :: s.Key()
  }

  /** The worklist's pop: an entry of least priority. */
  method SelectMin(queue: seq<State>) returns (i: nat)
    requires |queue| > 0
    ensures i < |queue|
    ensures forall j :: 0 <= j < |queue| ==> queue[i].Priority() <= queue[j].Priority()
  {
    i := 0;
    var k := 1;
    while k < |queue|
      invariant 0 <= i < k <= |queue|
      invariant forall j :: 0 <= j < k ==> queue[i].Priority() <= queue[j].Priority()
    {
      if queue[k].Priority() < queue[i].Priority() {
        i := k;
      }
      k := k + 1;
    }
  }

  /** A configuration the vehicle may move to: speed-limited and on a free cell. */
  predicate Legal(grid: seq<seq<bool>>, width: int, height: int, t: Config)
    requires Fits(grid, width, height)
  {
    SpeedOk(t.velocity) && IsValid(t.point.x, t.point.y, width, height, grid)
  }

  /** What the inner loop promises of each entry it pushes from `current`. */
  predicate PushedFrom(grid: seq<seq<bool>>, width: int, height: int, end: Node, current: State,
                       visited: set<Config>, s: State)
    requires Fits(grid, width, height)
  {
    && Step(grid, width, height, current.Key(), s.Key())
    && s.Key() !in visited
    && s.hops == current.hops + 1
    && s.heuristic == Heuristic(s.point, end)
  }

  /** The direction `d` from `c` has been dealt with: it leads nowhere legal,
      or to a configuration already pushed. */
  predicate Handled(grid: seq<seq<bool>>, width: int, height: int, c: Config, d: Node,
                    visited: set<Config>)
    requires Fits(grid, width, height)
  {
    Legal(grid, width, height, Accelerate(c, d)) ==> Accelerate(c, d) in visited
  }

  lemma KeysConcat(p: seq<State>, q: seq<State>)
    ensures Keys(p + q) == Keys(p) + Keys(q)
  {
    assert forall x :: x in p + q <==> x in p || x in q;
  }

  lemma KeysAppend(q: seq<State>, s: State)
    ensures Keys(q + [s]) == Keys(q) + {s.Key()}
  {
    assert forall x :: x in q + [s] <==> x in q || x == s;
  }

  /** The first `k` directions of the table have been dealt with. */
  predicate HandledUpTo(grid: seq<seq<bool>>, width: int, height: int, c: Config, k: nat,
                        visited: set<Config>)
    requires Fits(grid, width, height)
    requires k <= |Directions|
  {
    forall j :: 0 <= j < k ==> Handled(grid, width, height, c, Directions[j], visited)
  }

  lemma HandledGrows(grid: seq<seq<bool>>, width: int, height: int, c: Config, k: nat,
                     v: set<Config>, v': set<Config>)
    requires Fits(grid, width, height)
    requires k < |Directions|
    requires v <= v'
    requires HandledUpTo(grid, width, height, c, k, v)
    requires Handled(grid, width, height, c, Directions[k], v')
    ensures HandledUpTo(grid, width, height, c, k + 1, v')
  {
  }

  /** Once every direction of the table has been dealt with, every hop out
      of `c` lands in `visited`. */
  lemma AllHandledCoversSteps(grid: seq<seq<bool>>, width: int, height: int, c: Config,
                              visited: set<Config>)
    requires Fits(grid, width, height)
    requires HandledUpTo(grid, width, height, c, |Directions|, visited)
    ensures forall t :: Step(grid, width, height, c, t) ==> t in visited
  {
    forall t | Step(grid, width, height, c, t)
      ensures t in visited
    {
      StepIsTableMove(grid, width, height, c, t);
      var k :| 0 <= k < |Directions| && t == Accelerate(c, Directions[k]) && Legal(grid, width, height, t);
      assert Handled(grid, width, height, c, Directions[k], visited);
    }
  }

  /** One pass of the inner loop, for the direction `Directions[k]`: whether
      it pushes an entry, and which. */
  method TryDirection(grid: seq<seq<bool>>, width: int, height: int, end: Node, current: State,
                      k: nat, visited: set<Config>)
    returns (push: bool, next: State)
    requires Fits(grid, width, height)
    requires k < |Directions|
    ensures push ==> PushedFrom(grid, width, height, end, current, visited, next)
    ensures push ==> Handled(grid, width, height, current.Key(), Directions[k], visited + {next.Key()})
    ensures !push ==> Handled(grid, width, height, current.Key(), Directions[k], visited)
  {
    push, next := false, current;
    var d := Directions[k];
    var newV := Add(current.velocity, d);
    if newV.x < -MaxSpeed || newV.x > MaxSpeed || newV.y < -MaxSpeed || newV.y > MaxSpeed {
      return;
    }
    var newP := Add(current.point, newV);
    if IsValid(newP.x, newP.y, width, height, grid) {
      if Config(newP, newV) !in visited {
        next := State(newP, newV, current.hops + 1, Heuristic(newP, end));
        assert Step(grid, width, height, current.Key(), next.Key()) by {
          DirectionsAreUnitAccelerations(d);
        }
        push := true;
      }
    }
  }

  /** The state of the inner loop: `v` is the visited set grown by exactly the
      entries pushed so far, each one new and pushed from `current`. */
  predicate Pushing(grid: seq<seq<bool>>, width: int, height: int, end: Node, current: State,
                    visited: set<Config>, pushed: seq<State>, v: set<Config>)
    requires Fits(grid, width, height)
  {
    && v == visited + Keys(pushed)
    && |v| == |visited| + |pushed|
    && forall s :: s in pushed ==> PushedFrom(grid, width, height, end, current, visited, s)
  }

  lemma PushOne(grid: seq<seq<bool>>, width: int, height: int, end: Node, current: State,
                visited: set<Config>, pushed: seq<State>, v: set<Config>, next: State)
    requires Fits(grid, width, height)
    requires Pushing(grid, width, height, end, current, visited, pushed, v)
    requires PushedFrom(grid, width, height, end, current, v, next)
    ensures Pushing(grid, width, height, end, current, visited, pushed + [next], v + {next.Key()})
  {
    KeysAppend(pushed, next);
    assert |v + {next.Key()}| == |v| + 1;
  }

  /** The inner loop of the search: try the nine accelerations from `current`
      and push every configuration reached that is legal and not yet
      visited, marking it visited as it is pushed. */
  method Expand(grid: seq<seq<bool>>, width: int, height: int, end: Node, current: State,
                visited: set<Config>)
    returns (pushed: seq<State>, visited': set<Config>)
    requires Fits(grid, width, height)
    ensures visited' == visited + Keys(pushed)
    ensures |visited'| == |visited| + |pushed|
    ensures forall s :: s in pushed ==> PushedFrom(grid, width, height, end, current, visited, s)
    ensures forall t :: Step(grid, width, height, current.Key(), t) ==> t in visited'
  {
    pushed := [];
    visited' := visited;
    for k := 0 to |Directions|
      invariant Pushing(grid, width, height, end, current, visited, pushed, visited')
      invariant HandledUpTo(grid, width, height, current.Key(), k, visited')
    {
      var push, next := TryDirection(grid, width, height, end, current, k, visited');
      ghost var before := visited';
      if push {
        PushOne(grid, width, height, end, current, visited, pushed, visited', next);
        pushed := pushed + [next];
        visited' := visited' + {next.Key()};
      }
      HandledGrows(grid, width, height, current.Key(), k, before, visited');
    }
    AllHandledCoversSteps(grid, width, height, current.Key(), visited');
  }

  /** Every configuration pushed so far has a recorded trajectory ending on it. */
  ghost predicate PathsOk(grid: seq<seq<bool>>, width: int, height: int, start: Node,
                          paths: map<Config, seq<Config>>, visited: set<Config>)
    requires Fits(grid, width, height)
  {
    && paths.Keys == visited
    && forall c :: c in visited ==>
      IsRun(grid, width, height, start, paths[c]) && paths[c][|paths[c]| - 1] == c
  }

  /** Every configuration pushed so far is the initial one or a legal one. */
  predicate ExploredOk(grid: seq<seq<bool>>, width: int, height: int, start: Node, visited: set<Config>)
    requires Fits(grid, width, height)
  {
    forall c :: c in visited ==>
      && SpeedOk(c.velocity)
      && (c == Initial(start) || IsValid(c.point.x, c.point.y, width, height, grid))
  }

  /** Every hop out of an expanded configuration lands on a pushed one. */
  ghost predicate ClosedUnder(grid: seq<seq<bool>>, width: int, height: int, done: set<Config>,
                              visited: set<Config>)
    requires Fits(grid, width, height)
  {
    forall c, t :: c in done && Step(grid, width, height, c, t) ==> t in visited
  }

  /** `c` is the configuration of some entry still in the worklist. */
  predicate Queued(c: Config, queue: seq<State>)
  {
    exists s :: s in queue && s.Key() == c
  }

  /** The loop invariant of the search. `visited` holds every configuration
      pushed so far, each with a trajectory of as many hops as its entry
      records; each of them has either been expanded (`done`) or is still
      queued; no expanded configuration stands on `end`, and every hop out of
      an expanded configuration lands on a pushed one. */
  ghost predicate SearchInv(grid: seq<seq<bool>>, width: int, height: int, start: Node, end: Node,
                            queue: seq<State>, visited: set<Config>, done: set<Config>,
                            paths: map<Config, seq<Config>>)
    requires Fits(grid, width, height)
  {
    && Initial(start) in visited
    && ExploredOk(grid, width, height, start, visited)
    && PathsOk(grid, width, height, start, paths, visited)
    && (forall s :: s in queue ==> s.Key() in visited && |paths[s.Key()]| == s.hops + 1)
    && done <= visited
    && (forall c :: c in visited ==> c in done || Queued(c, queue))
    && (forall c :: c in done ==> c.point != end)
    && ClosedUnder(grid, width, height, done, visited)
  }

  lemma InitialInv(grid: seq<seq<bool>>, width: int, height: int, start: Node, end: Node,
                   initial: State)
    requires Fits(grid, width, height)
    requires initial.Key() == Initial(start) && initial.hops == 0
    ensures SearchInv(grid, width, height, start, end, [initial], {Initial(start)}, {},
                      map[Initial(start) := [Initial(start)]])
  {
    assert Queued(Initial(start), [initial]) by {
      assert initial in [initial];
    }
  }

  /** Recording, for each newly pushed configuration, the trajectory of its
      parent extended by one hop. */
  lemma ExtendPaths(grid: seq<seq<bool>>, width: int, height: int, start: Node,
                    paths: map<Config, seq<Config>>, visited: set<Config>, current: Config,
                    pushed: set<Config>)
    returns (paths': map<Config, seq<Config>>)
    requires Fits(grid, width, height)
    requires PathsOk(grid, width, height, start, paths, visited)
    requires current in visited
    requires forall c :: c in pushed ==> Step(grid, width, height, current, c) && c !in visited
    ensures PathsOk(grid, width, height, start, paths', visited + pushed)
    ensures forall c :: c in visited ==> paths'[c] == paths[c]
    ensures forall c :: c in pushed ==> |paths'[c]| == |paths[current]| + 1
  {
    var base := paths[current];
    paths' := paths + map c | c in pushed :: base + [c];
    forall c | c in pushed
      ensures IsRun(grid, width, height, start, paths'[c])
    {
      RunExtends(grid, width, height, start, base, c);
    }
  }

  /** Removing the popped entry loses no configuration but its own. */
  lemma RemoveAt(queue: seq<State>, i: nat)
    requires i < |queue|
    ensures forall s :: s in queue[..i] + queue[i + 1..] ==> s in queue
    ensures forall c :: Queued(c, queue) ==> c == queue[i].Key() || Queued(c, queue[..i] + queue[i + 1..])
  {
    var rest := queue[..i] + queue[i + 1..];
    forall c | Queued(c, queue)
      ensures c == queue[i].Key() || Queued(c, rest)
    {
      var s :| s in queue && s.Key() == c;
      var j :| 0 <= j < |queue| && queue[j] == s;
      if j < i {
        assert s == rest[j];
      } else if j > i {
        assert s == rest[j - 1];
      }
    }
  }

  /** The entries pushed by one expansion, described without the `Keys` set. */
  lemma PushedKeys(grid: seq<seq<bool>>, width: int, height: int, end: Node, current: State,
                   visited: set<Config>, pushed: seq<State>)
    requires Fits(grid, width, height)
    requires forall s :: s in pushed ==> PushedFrom(grid, width, height, end, current, visited, s)
    ensures forall c :: c in Keys(pushed) ==> Step(grid, width, height, current.Key(), c) && c !in visited
    ensures forall c :: c in Keys(pushed) ==> Queued(c, pushed)
  {
  }

  /** After a round, every queued entry still has a recorded trajectory of
      as many hops as it records. */
  lemma AdvanceQueue(grid: seq<seq<bool>>, width: int, height: int, start: Node, end: Node,
                     queue: seq<State>, i: nat, visited: set<Config>,
                     paths: map<Config, seq<Config>>, paths': map<Config, seq<Config>>,
                     pushed: seq<State>)
    requires Fits(grid, width, height)
    requires i < |queue|
    requires paths.Keys == visited
    requires forall s :: s in queue ==> s.Key() in visited && |paths[s.Key()]| == s.hops + 1
    requires forall s :: s in pushed ==> PushedFrom(grid, width, height, end, queue[i], visited, s)
    requires queue[i].Key() in visited
    requires forall c :: c in visited ==> c in paths' && paths'[c] == paths[c]
    requires forall c :: c in Keys(pushed) ==> c in paths' && |paths'[c]| == |paths[queue[i].Key()]| + 1
    ensures forall s :: s in queue[..i] + queue[i + 1..] + pushed ==>
      s.Key() in visited + Keys(pushed) && |paths'[s.Key()]| == s.hops + 1
  {
    RemoveAt(queue, i);
    var rest := queue[..i] + queue[i + 1..];
    forall s | s in rest + pushed
      ensures s.Key() in visited + Keys(pushed) && |paths'[s.Key()]| == s.hops + 1
    {
      if s in rest {
        assert s in queue;
      } else {
        assert s.Key() in Keys(pushed);
      }
    }
  }

  /** After a round, every pushed configuration is expanded or still queued. */
  lemma AdvanceCover(queue: seq<State>, i: nat, visited: set<Config>, done: set<Config>,
                     pushed: seq<State>)
    requires i < |queue|
    requires forall c :: c in visited ==> c in done || Queued(c, queue)
    ensures forall c :: c in visited + Keys(pushed) ==>
      c in done + {queue[i].Key()} || Queued(c, queue[..i] + queue[i + 1..] + pushed)
  {
    RemoveAt(queue, i);
    var rest := queue[..i] + queue[i + 1..];
    var q' := rest + pushed;
    forall c | c in visited + Keys(pushed)
      ensures c in done + {queue[i].Key()} || Queued(c, q')
    {
      if c in visited {
        if c !in done && c != queue[i].Key() {
          var s :| s in rest && s.Key() == c;
          assert s in q';
        }
      } else {
        var s :| s in pushed && s.Key() == c;
        assert s in q';
      }
    }
  }

  /** One round of the search — pop `queue[i]`, which is not on `end`, and
      push its new successors — keeps the invariant. */
  lemma Advance(grid: seq<seq<bool>>, width: int, height: int, start: Node, end: Node,
                queue: seq<State>, i: nat, visited: set<Config>, done: set<Config>,
                paths: map<Config, seq<Config>>, pushed: seq<State>, visited': set<Config>)
    returns (paths': map<Config, seq<Config>>)
    requires Fits(grid, width, height)
    requires SearchInv(grid, width, height, start, end, queue, visited, done, paths)
    requires i < |queue| && queue[i].point != end
    requires visited' == visited + Keys(pushed)
    requires forall s :: s in pushed ==> PushedFrom(grid, width, height, end, queue[i], visited, s)
    requires forall t :: Step(grid, width, height, queue[i].Key(), t) ==> t in visited'
    ensures SearchInv(grid, width, height, start, end, queue[..i] + queue[i + 1..] + pushed,
                      visited', done + {queue[i].Key()}, paths')
  {
    var current := queue[i];
    PushedKeys(grid, width, height, end, current, visited, pushed);
    paths' := ExtendPaths(grid, width, height, start, paths, visited, current.Key(), Keys(pushed));
    AdvanceQueue(grid, width, height, start, end, queue, i, visited, paths, paths', pushed);
    AdvanceCover(queue, i, visited, done, pushed);
    AdvanceExplored(grid, width, height, start, current.Key(), visited, Keys(pushed));
    AdvanceClosed(grid, width, height, current.Key(), visited, done, visited');
  }

  lemma AdvanceExplored(grid: seq<seq<bool>>, width: int, height: int, start: Node, current: Config,
                        visited: set<Config>, added: set<Config>)
    requires Fits(grid, width, height)
    requires ExploredOk(grid, width, height, start, visited)
    requires forall c :: c in added ==> Step(grid, width, height, current, c)
    ensures ExploredOk(grid, width, height, start, visited + added)
  {
  }

  lemma AdvanceClosed(grid: seq<seq<bool>>, width: int, height: int, current: Config,
                      visited: set<Config>, done: set<Config>, visited': set<Config>)
    requires Fits(grid, width, height)
    requires ClosedUnder(grid, width, height, done, visited)
    requires visited <= visited'
    requires forall t :: Step(grid, width, height, current, t) ==> t in visited'
    ensures ClosedUnder(grid, width, height, done + {current}, visited')
  {
  }

  /** The pushed configurations lie in the state space and were not visited
      before, so an expansion either shrinks the unexplored part of the state
      space or leaves the visited set as it was. */
  lemma Progress(grid: seq<seq<bool>>, width: int, height: int, start: Node, end: Node,
                 current: State, visited: set<Config>, pushed: seq<State>, universe: set<Config>)
    requires Fits(grid, width, height)
    requires universe == Universe(start, width, height)
    requires visited <= universe
    requires forall s :: s in pushed ==> PushedFrom(grid, width, height, end, current, visited, s)
    ensures visited + Keys(pushed) <= universe
    ensures |pushed| == 0 ==> visited + Keys(pushed) == visited
    ensures |pushed| > 0 ==> |universe - (visited + Keys(pushed))| < |universe - visited|
  {
    forall c | c in Keys(pushed)
      ensures c in universe
    {
      var s :| s in pushed && s.Key() == c;
      HopStaysInUniverse(grid, width, height, start, current.Key(), c);
    }
    if |pushed| > 0 {
      var c := pushed[0].Key();
      assert c in Keys(pushed);
      assert c in universe - visited;
      var smaller := universe - (visited + Keys(pushed));
      assert smaller <= (universe - visited) - {c};
      SubsetSize(smaller, (universe - visited) - {c});
    }
  }

  /** A popped entry on `end` is backed by a trajectory of as many hops as it records. */
  lemma FoundEnd(grid: seq<seq<bool>>, width: int, height: int, start: Node, end: Node,
                 queue: seq<State>, i: nat, visited: set<Config>, done: set<Config>,
                 paths: map<Config, seq<Config>>)
    requires Fits(grid, width, height)
    requires SearchInv(grid, width, height, start, end, queue, visited, done, paths)
    requires i < |queue| && queue[i].point == end
    ensures ReachesIn(grid, width, height, start, end, queue[i].hops)
  {
    var path := paths[queue[i].Key()];
    assert IsRun(grid, width, height, start, path) && |path| == queue[i].hops + 1;
    assert path[queue[i].hops].point == end;
  }

  /** Once the worklist is empty every pushed configuration has been expanded,
      so the visited set is closed under hops and `end` is out of reach. */
  lemma Exhausted(grid: seq<seq<bool>>, width: int, height: int, start: Node, end: Node,
                  visited: set<Config>, done: set<Config>, paths: map<Config, seq<Config>>)
    requires Fits(grid, width, height)
    requires SearchInv(grid, width, height, start, end, [], visited, done, paths)
    ensures forall n: nat :: !ReachesIn(grid, width, height, start, end, n)
  {
    assert visited == done;
    ClosedSetBlocks(grid, width, height, start, end, visited);
  }

  /** The search. A "Hops(n)" answer is backed by a legal n-hop trajectory to
      `end`; "NoSolution" means no trajectory of any length gets there; when
      `start == end` the answer is zero hops whatever the grid holds.
      `explored` is every configuration ever pushed and `pushes` the number of
      pushes: they are equal, so no configuration is pushed twice, and the
      state space bounds both. */
  method Solve(grid: seq<seq<bool>>, start: Node, end: Node, width: int, height: int)
    returns (answer: Answer, ghost explored: set<Config>, ghost pushes: nat)
    requires Fits(grid, width, height)
    ensures answer.Hops? ==> ReachesIn(grid, width, height, start, end, answer.n)
    ensures answer.NoSolution? ==> forall n: nat :: !ReachesIn(grid, width, height, start, end, n)
    ensures start == end ==> answer == Hops(0)
    ensures Initial(start) in explored
    ensures forall c :: c in explored ==>
      && SpeedOk(c.velocity)
      && (c == Initial(start) || IsValid(c.point.x, c.point.y, width, height, grid))
    ensures pushes == |explored| <= 1 + Count(width) * Count(height) * 49
  {
    var initial := State(start, Node(0, 0), 0, Heuristic(start, end));
    var queue := [initial];
    var visited := {initial.Key()};
    ghost var done: set<Config> := {};
    ghost var paths: map<Config, seq<Config>> := map[initial.Key() := [initial.Key()]];
    ghost var universe := Universe(start, width, height);
    pushes := 1;
    InitialInv(grid, width, height, start, end, initial);

    while |queue| > 0
      invariant SearchInv(grid, width, height, start, end, queue, visited, done, paths)
      invariant visited <= universe
      invariant pushes == |visited|
      invariant start == end ==> queue == [initial]
      decreases |universe - visited|, |queue|
    {
      var i := SelectMin(queue);
      var current := queue[i];
      if current.point == end {
        FoundEnd(grid, width, height, start, end, queue, i, visited, done, paths);
        answer, explored := Hops(current.hops), visited;
        UniverseSize(start, width, height);
        SubsetSize(visited, universe);
        return;
      }
      var pushed, visited' := Expand(grid, width, height, end, current, visited);
      paths := Advance(grid, width, height, start, end, queue, i, visited, done, paths, pushed, visited');
      Progress(grid, width, height, start, end, current, visited, pushed, universe);
      done := done + {current.Key()};
      assert |queue[..i] + queue[i + 1..] + pushed| == |queue| - 1 + |pushed|;
      queue := queue[..i] + queue[i + 1..] + pushed;
      pushes := pushes + |pushed|;
      visited := visited';
    }

    Exhausted(grid, width, height, start, end, visited, done, paths);
    answer, explored := NoSolution, visited;
    UniverseSize(start, width, height);
    SubsetSize(visited, universe);
  }

  /** The text the source returns for an answer. */
  function Report(answer: Answer): (text: string)
    ensures text == "No solution." <==> answer.NoSolution?
  {
    match answer
    case Hops(n) => "Optimal solution takes " + Text.NatToString(n) + " hops."
    case NoSolution => "No solution."
  }
}

=== FILE: domain.dfy ===
/** The records shared by the solver and the provider (internal/race-track/domain). */
module Domain {

  /** A grid cell or a velocity vector; compared by value. */
  datatype Node = Node(x: int, y: int)

  /** Component-wise sum of two nodes. */
  function Add(a: Node, b: Node): Node
  {
    Node(a.x + b.x, a.y + b.y)
  }

  /** How many times a loop `for i := 0; i < n; i++` runs: a negative bound
      runs it no times. */
  function Count(n: int): nat
  {
    if n < 0 then 0 else n
  }

  /** One problem instance as the provider builds it. `grid` holds `width`
      outer rows of `height` cells and is indexed `grid[x][y]`; true marks an
      obstacle. */
  datatype Case = Case(
    id: int,
    width: int,
    height: int,
    grid: seq<seq<bool>>,
    start: Node,
    end: Node,
    numObstacles: int)
}

=== FILE: pipeline.dfy ===
/** The program's driver (cmd/main.go): it reads the cases with the provider
    and hands each case's grid, start, end and size to the solver.

    The provider builds its grid column-first, `grid[x][y]`
    (internal/race-track/application/case_provider.go:62-65, 81), while the
    solver reads it row-first, `grid[y][x]` (case_solver.go:81). Passed on as
    written (main.go:37), a square grid reaches the solver transposed, and
    any other grid has cells of the declared board that the solver's reads
    miss. This module exhibits both, then defines the grid the solver
    expects and proves that solving it respects the declared obstacles. */
module Pipeline {
  import opened Domain
  import opened CaseProvider
  import opened CaseSolver
  import opened ProviderRender
  import SolverExamples

  /** The first sample case of the driver: 5 by 5, from (4, 0) to (4, 4),
      with one obstacle covering x 1 .. 4 and y 2 .. 3. */
  const SampleText: CaseText := CaseText(5, 5, Node(4, 0), Node(4, 4), [Rect(1, 4, 2, 3)])

  /** A case one cell wide and two tall, with no obstacles. */
  const TallText: CaseText := CaseText(1, 2, Node(0, 0), Node(0, 1), [])

  /** The provider reads a one-case input as the case it describes. */
  lemma ReadOne(scan: Scanner, format: Formatter, t: CaseText)
    requires Inverts(scan, format)
    requires Sensible(t)
    ensures Get(scan, Render(format, [t])) == Ok([Expected(t, 1)])
  {
    var ts := [t];
    assert ts[0] == t;
    assert ExpectedCases(ts, 1) == [];
    assert ExpectedCases(ts, 0) == [Expected(t, 1)];
    RoundTrip(scan, format, ts);
  }

  /** What a solver answer vouches for on the corrected grid of a case. */
  ghost predicate Solved(c: Case, answer: Answer)
    requires Shaped(c.grid, c.width, c.height)
  {
    && (answer.Hops? ==> ReachesIn(SolverGrid(c), c.width, c.height, c.start, c.end, answer.n))
    && (answer.NoSolution? ==> forall n: nat :: !ReachesIn(SolverGrid(c), c.width, c.height, c.start, c.end, n))
  }

  // ---------------------------------------------------------------------
  // As written: the provider's grid goes to the solver unchanged
  // ---------------------------------------------------------------------

  /** The provider's grid for the sample case, read row-first, leaves the
      column x = 4 free from top to bottom. */
  lemma TransposedRun()
    ensures Fits(Expected(SampleText, 1).grid, 5, 5)
    ensures ReachesIn(Expected(SampleText, 1).grid, 5, 5, Node(4, 0), Node(4, 4), 3)
  {
    var g := Expected(SampleText, 1).grid;
    var path := [SolverExamples.C(4, 0, 0, 0), SolverExamples.C(4, 1, 0, 1), SolverExamples.C(4, 2, 0, 1),
                 SolverExamples.C(4, 4, 0, 2)];
    forall i | 0 <= i < |path| - 1
      ensures Step(g, 5, 5, path[i], path[i + 1])
    {
    }
    assert IsRun(g, 5, 5, Node(4, 0), path);
  }

  /** Cell (4, 2) of the sample's obstacle sits at index [4][2] of the
      provider's grid but at [2][4] of the tests' row-first grid. */
  lemma ProviderGridDiffers()
    ensures Expected(SampleText, 1).grid != SolverExamples.SampleOne
  {
    var rs := SampleText.obstacles;
    assert InRect(rs[0].x1, rs[0].x2, rs[0].y1, rs[0].y2, 4, 2);
    assert Expected(SampleText, 1).grid[4][2] != SolverExamples.SampleOne[4][2];
  }

  /** The provider reads the sample case into its column-first grid, which
      is not the row-first grid its own test and the solver's test expect for
      this input. Handed to the solver unchanged, the declared obstacle cell
      (4, 2) counts as free, and a three-hop run straight down through it
      reaches the end. */
  lemma AsWrittenIgnoresObstacle(scan: Scanner, format: Formatter)
    requires Inverts(scan, format)
    ensures Get(scan, Render(format, [SampleText])) == Ok([Expected(SampleText, 1)])
    ensures var g := Expected(SampleText, 1).grid;
      && g != SolverExamples.SampleOne
      && Fits(g, 5, 5)
      && Blocked(SampleText.obstacles, 4, 2)
      && IsValid(4, 2, 5, 5, g)
      && ReachesIn(g, 5, 5, Node(4, 0), Node(4, 4), 3)
  {
    ReadOne(scan, format, SampleText);
    TransposedRun();
    ProviderGridDiffers();
    assert InRect(1, 4, 2, 3, 4, 2);
  }

  /** A case one cell wide and two tall: the provider's grid has one row,
      so the solver's reads of row 1, inside the declared height, fall off
      the grid. The Go program panics there. */
  lemma AsWrittenTallGridUnfit(scan: Scanner, format: Formatter)
    requires Inverts(scan, format)
    ensures Get(scan, Render(format, [TallText])) == Ok([Expected(TallText, 1)])
    ensures var g := Expected(TallText, 1).grid;
      && |g| == 1
      && 0 <= TallText.end.y < TallText.height
      && !Fits(g, TallText.width, TallText.height)
  {
    ReadOne(scan, format, TallText);
  }

  /** The solver's row-first read of cell (x, y), `grid[y][x]`, falls off
      the grid. */
  predicate ReadsOffGrid(grid: seq<seq<bool>>, x: int, y: int)
  {
    !(0 <= y < |grid| && 0 <= x < |grid[y]|)
  }

  /** A column-first grid of a board that is not square does not fit the
      solver: some cell of the declared board is read off the grid. */
  lemma NonSquareUnfit(grid: seq<seq<bool>>, width: int, height: int)
    requires Shaped(grid, width, height)
    requires 1 <= width && 1 <= height && width != height
    ensures !Fits(grid, width, height)
    ensures exists x, y :: 0 <= x < width && 0 <= y < height && ReadsOffGrid(grid, x, y)
  {
    if width < height {
      assert ReadsOffGrid(grid, 0, height - 1);
    } else {
      assert ReadsOffGrid(grid, width - 1, 0);
    }
  }

  /** Every case the provider reads whose board is not square reaches the
      solver, as written, with a grid that does not fit it: some cell of
      the declared board lies off the grid the solver reads. */
  lemma AsWrittenNonSquareUnfit(scan: Scanner, lines: seq<string>, pos: nat, id: int)
    requires ReadCase(scan, lines, pos, id).Ok?
    requires var c := ReadCase(scan, lines, pos, id).value.0;
      1 <= c.width && 1 <= c.height && c.width != c.height
    ensures var c := ReadCase(scan, lines, pos, id).value.0;
      && !Fits(c.grid, c.width, c.height)
      && exists x, y :: 0 <= x < c.width && 0 <= y < c.height && ReadsOffGrid(c.grid, x, y)
  {
    var c := ReadCase(scan, lines, pos, id).value.0;
    NonSquareUnfit(c.grid, c.width, c.height);
  }

  // ---------------------------------------------------------------------
  // Corrected: the solver gets the row-first grid
  // ---------------------------------------------------------------------

  /** The provider's grid turned row-first, the layout the solver reads. */
  function SolverGrid(c: Case): (g: seq<seq<bool>>)
    requires Shaped(c.grid, c.width, c.height)
    ensures Fits(g, c.width, c.height)
    ensures forall x, y :: 0 <= x < c.width && 0 <= y < c.height ==> g[y][x] == c.grid[x][y]
  {
    seq(Count(c.height), y requires 0 <= y < Count(c.height) =>
      seq(c.width, x requires 0 <= x < c.width => c.grid[x][y]))
  }

  /** On the corrected grid, the cells the solver may occupy are exactly the
      cells of the declared board outside every declared obstacle. */
  lemma CorrectedFreeCells(t: CaseText, id: int)
    requires Sensible(t)
    ensures var g := SolverGrid(Expected(t, id));
      forall x, y :: IsValid(x, y, t.width, t.height, g) <==>
        0 <= x < t.width && 0 <= y < t.height && !Blocked(t.obstacles, x, y)
  {
  }

  /** Corrected, the sample case is exactly the grid of the solver's own test
      for it, and its obstacle cell (4, 2) is blocked. */
  lemma CorrectedSampleMatchesTest()
    ensures SolverGrid(Expected(SampleText, 1)) == SolverExamples.SampleOne
    ensures !IsValid(4, 2, 5, 5, SolverGrid(Expected(SampleText, 1)))
  {
    var g := SolverGrid(Expected(SampleText, 1));
    forall y | 0 <= y < 5
      ensures g[y] == SolverExamples.SampleOne[y]
    {
      forall x | 0 <= x < 5
        ensures g[y][x] == SolverExamples.SampleOne[y][x]
      {
        var rs := SampleText.obstacles;
        assert g[y][x] == Blocked(rs, x, y);
        if InRect(1, 4, 2, 3, x, y) {
          assert InRect(rs[0].x1, rs[0].x2, rs[0].y1, rs[0].y2, x, y);
        }
      }
    }
  }

  /** One case as the driver should solve it: on the row-first grid, so that
      every run the answer vouches for avoids the declared obstacles. */
  method SolveCase(c: Case) returns (answer: Answer)
    requires Shaped(c.grid, c.width, c.height)
    ensures answer.Hops? ==> ReachesIn(SolverGrid(c), c.width, c.height, c.start, c.end, answer.n)
    ensures answer.NoSolution? ==> forall n: nat :: !ReachesIn(SolverGrid(c), c.width, c.height, c.start, c.end, n)
    ensures c.start == c.end ==> answer == Hops(0)
  {
    ghost var explored, pushes;
    answer, explored, pushes := Solve(SolverGrid(c), c.start, c.end, c.width, c.height);
  }

  /** What the driver prints for one case. */
  function CaseReport(id: int, answer: Answer): string
  {
    "Case " + Text.IntToString(id) + ":\n" + Report(answer) + "\n"
  }

  /** Every case the provider returns, solved in order and reported under its
      number; the goroutines of the driver print the same reports in an
      unspecified order. */
  method SolveAll(cases: seq<Case>) returns (answers: seq<Answer>, reports: seq<string>)
    requires forall k :: 0 <= k < |cases| ==> Shaped(cases[k].grid, cases[k].width, cases[k].height)
    ensures |answers| == |reports| == |cases|
    ensures forall k :: 0 <= k < |cases| ==> reports[k] == CaseReport(cases[k].id, answers[k])
    ensures forall k :: 0 <= k < |cases| ==> Solved(cases[k], answers[k])
  {
    answers := [];
    for k := 0 to |cases|
      invariant |answers| == k
      invariant forall i :: 0 <= i < k ==> Solved(cases[i], answers[i])
    {
      var answer := SolveCase(cases[k]);
      answers := answers + [answer];
    }
    reports := seq(|cases|, k requires 0 <= k < |cases| => CaseReport(cases[k].id, answers[k]));
  }

  /** The corrected driver on the sample case answers with a run of at
      least seven hops that never enters the obstacle, as the solver's test
      for this grid expects. */
  method SolveSample() returns (answer: Answer)
    ensures answer.Hops? && answer.n >= 7
  {
    CorrectedSampleMatchesTest();
    answer := SolveCase(Expected(SampleText, 1));
    SolverExamples.SampleOneInSeven();
    forall m: nat | m < 7
      ensures !ReachesIn(SolverExamples.SampleOne, 5, 5, Node(4, 0), Node(4, 4), m)
    {
      if ReachesIn(SolverExamples.SampleOne, 5, 5, Node(4, 0), Node(4, 4), m) {
        SolverExamples.SampleOneAtLeastSeven(m);
      }
    }
    if answer.Hops? {
      SolverExamples.AnswerAtLeast(SolverExamples.SampleOne, 5, 5, Node(4, 0), Node(4, 4), answer.n, 7);
    }
  }
}

=== FILE: provider_examples.dfy ===
/** The error cases of the provider's tests
    (internal/race-track/application/case_provider_test.go): each input, read
    by a scanner that reads its lines as `fmt.Sscanf` does, gives the error
    value and the message text the test expects, except where noted. */
module ProviderExamples {
  import opened CaseProvider
  import Text

  /** "No input". */
  lemma NoInput(scan: Scanner)
    ensures Get(scan, []) == Err(ReadCountFailed)
    ensures Message(Get(scan, []).error) == "failed to read number of test cases"
  {
  }

  /** "Invalid number of test cases": the first line is not a number. */
  lemma InvalidCount(scan: Scanner)
    requires scan("a", 1).None?
    ensures Get(scan, ["a"]) == Err(ParseCountFailed)
    ensures Message(Get(scan, ["a"]).error) == "failed to parse number of test cases"
  {
  }

  /** "Incomplete test case": the input stops after the dimensions. */
  lemma IncompleteCase(scan: Scanner)
    requires scan("1", 1) == Some([1]) && scan("5 5", 2) == Some([5, 5])
    ensures Get(scan, ["1", "5 5"]) == Err(MissingPoints(1))
  {
    var lines := ["1", "5 5"];
    assert Fields(scan, lines[0], 1) == Some([1]);
    assert Fields(scan, lines[1], 2) == Some([5, 5]);
    assert ReadCase(scan, lines, 1, 1) == Err(MissingPoints(1));
  }

  /** "Non-integer coordinates": the points line does not parse. */
  lemma NonIntegerCoordinates(scan: Scanner)
    requires scan("1", 1) == Some([1]) && scan("5 5", 2) == Some([5, 5]) && scan("a b c d", 4).None?
    ensures Get(scan, ["1", "5 5", "a b c d", "0"]) == Err(BadPoints(1))
  {
    var lines := ["1", "5 5", "a b c d", "0"];
    assert Fields(scan, lines[0], 1) == Some([1]);
    assert Fields(scan, lines[1], 2) == Some([5, 5]);
    assert Fields(scan, lines[2], 4).None?;
    assert ReadCase(scan, lines, 1, 1) == Err(BadPoints(1));
  }

  /** "Extra data after test cases": a complete case followed by one more line. */
  lemma ExtraDataAfterCases(scan: Scanner)
    requires scan("1", 1) == Some([1]) && scan("5 5", 2) == Some([5, 5])
    requires scan("4 0 4 4", 4) == Some([4, 0, 4, 4]) && scan("0", 1) == Some([0])
    ensures Get(scan, ["1", "5 5", "4 0 4 4", "0", "extra data"]) == Err(ExtraData)
  {
    var lines := ["1", "5 5", "4 0 4 4", "0", "extra data"];
    assert Fields(scan, lines[0], 1) == Some([1]);
    assert Fields(scan, lines[1], 2) == Some([5, 5]);
    assert Fields(scan, lines[2], 4) == Some([4, 0, 4, 4]);
    assert Fields(scan, lines[3], 1) == Some([0]);
    assert ReadCase(scan, lines, 1, 1).Ok? && ReadCase(scan, lines, 1, 1).value.1 == 4;
  }

  /** "Invalid obstacle coordinates": the rectangle x 0..4, y 1..1 runs past
      the right edge of a 3 by 3 grid at x = 3. */
  lemma ObstacleOutsideGrid(scan: Scanner)
    requires scan("1", 1) == Some([1]) && scan("3 3", 2) == Some([3, 3])
    requires scan("0 0 2 2", 4) == Some([0, 0, 2, 2]) && scan("1", 1) == Some([1])
    requires scan("0 4 1 1", 4) == Some([0, 4, 1, 1])
    ensures Get(scan, ["1", "3 3", "0 0 2 2", "1", "0 4 1 1"]) == Err(ObstacleOutOfBounds(1, 1))
  {
    var lines := ["1", "3 3", "0 0 2 2", "1", "0 4 1 1"];
    assert Fields(scan, lines[0], 1) == Some([1]);
    assert Fields(scan, lines[1], 2) == Some([3, 3]);
    assert Fields(scan, lines[2], 4) == Some([0, 0, 2, 2]);
    assert Fields(scan, lines[3], 1) == Some([1]);
    assert Fields(scan, lines[4], 4) == Some([0, 4, 1, 1]);
    var grid := NewGrid(3, 3).value;
    assert MarkRect(grid, 3, 3, 0, 4, 1, 1, 1, 1) == Err(ObstacleOutOfBounds(1, 1));
    assert ReadObstacles(scan, lines, 4, grid, 3, 3, 0, 1, 1) == Err(ObstacleOutOfBounds(1, 1));
    assert ReadCase(scan, lines, 1, 1) == Err(ObstacleOutOfBounds(1, 1));
  }

  /** "Negative dimensions": the test expects an "invalid grid dimensions"
      error, but no such check exists; the grid's `make` panics instead. */
  lemma NegativeDimensions(scan: Scanner)
    requires scan("1", 1) == Some([1]) && scan("-5 5", 2) == Some([-5, 5])
    requires scan("0 0 4 4", 4) == Some([0, 0, 4, 4]) && scan("0", 1) == Some([0])
    ensures Get(scan, ["1", "-5 5", "0 0 4 4", "0"]) == Crash(NegativeLength)
  {
    var lines := ["1", "-5 5", "0 0 4 4", "0"];
    assert Fields(scan, lines[0], 1) == Some([1]);
    assert Fields(scan, lines[1], 2) == Some([-5, 5]);
    assert Fields(scan, lines[2], 4) == Some([0, 0, 4, 4]);
    assert Fields(scan, lines[3], 1) == Some([0]);
  }

  lemma OneIsOne()
    ensures Text.IntToString(1) == "1"
  {
  }

  /** The message texts the error tests expect, for the first test case and
      its first obstacle. */
  lemma MissingPointsMessage()
    ensures Message(MissingPoints(1)) == "not enough information for test case 1: missing start and end points"
  {
    OneIsOne();
    MissingPointsText();
  }

  lemma MissingPointsText()
    ensures "not enough information for test case " + "1" + ": missing start and end points"
      == "not enough information for test case 1: missing start and end points"
  {
    assert "not enough information for test case " + "1" == "not enough information for test case 1";
  }

  lemma BadPointsMessage()
    ensures Message(BadPoints(1)) == "failed to parse start and end points for test case 1"
  {
    OneIsOne();
    BadPointsText();
  }

  lemma BadPointsText()
    ensures FailedToParse + "start and end points for test case " + "1"
      == "failed to parse start and end points for test case 1"
  {
    assert FailedToParse + "start and end points for test case " == "failed to parse start and end points for test case ";
  }

  lemma ExtraDataMessage()
    ensures Message(ExtraData) == "extra data found after the declared number of test cases"
  {
  }

  lemma OutOfBoundsMessage()
    ensures Message(ObstacleOutOfBounds(1, 1)) == "obstacle 1 for test case 1 is out of grid bounds"
  {
    OneIsOne();
    OutOfBoundsText();
  }

  lemma OutOfBoundsText()
    ensures "obstacle " + "1" + " for test case " + "1" + " is out of grid bounds"
      == "obstacle 1 for test case 1 is out of grid bounds"
  {
    assert "obstacle " + "1" + " for test case " + "1" == "obstacle 1 for test case 1";
  }
}

=== FILE: provider_laws.dfy ===
/** What the parser promises about the lines it reads: each reader looks at
    exactly the lines it consumes, so lines after a complete input are
    rejected as extra data, and an input cut short inside a case reports the
    line that is missing and the case it belongs to. */
module ProviderLaws {
  import opened Domain
  import opened CaseProvider

  /** `a` and `b` both have lines `from` .. `to` - 1, and they are the same. */
  predicate Agree(a: seq<string>, b: seq<string>, from: nat, to: nat)
  {
    && to <= |a| && to <= |b|
    && forall p :: from <= p < to ==> a[p] == b[p]
  }

  // ---------------------------------------------------------------------
  // Each reader is determined by the lines it consumes
  // ---------------------------------------------------------------------

  lemma {:induction false} ObstaclesDetermined(scan: Scanner, a: seq<string>, b: seq<string>, pos: nat,
                                               grid: Grid, w: int, h: int, j: int, count: int, c: int)
    requires Shaped(grid, w, h)
    requires ReadObstacles(scan, a, pos, grid, w, h, j, count, c).Ok?
    requires Agree(a, b, pos, ReadObstacles(scan, a, pos, grid, w, h, j, count, c).value.1) || j >= count
    ensures ReadObstacles(scan, b, pos, grid, w, h, j, count, c) == ReadObstacles(scan, a, pos, grid, w, h, j, count, c)
    decreases count - j
  {
    if j < count {
      var f := Fields(scan, a[pos], 4).value;
      var g := MarkRect(grid, w, h, f[0], f[1], f[2], f[3], j + 1, c).value;
      ObstaclesDetermined(scan, a, b, pos + 1, g, w, h, j + 1, count, c);
    }
  }

  lemma GridDetermined(scan: Scanner, a: seq<string>, b: seq<string>, pos: nat, c: int, w: int, h: int,
                       start: Node, end: Node, n: int)
    requires ReadGrid(scan, a, pos, c, w, h, start, end, n).Ok?
    requires Agree(a, b, pos, ReadGrid(scan, a, pos, c, w, h, start, end, n).value.1) || n <= 0
    ensures ReadGrid(scan, b, pos, c, w, h, start, end, n) == ReadGrid(scan, a, pos, c, w, h, start, end, n)
  {
    ObstaclesDetermined(scan, a, b, pos, NewGrid(w, h).value, w, h, 0, n, c);
  }

  lemma ObstacleCountDetermined(scan: Scanner, a: seq<string>, b: seq<string>, pos: nat, c: int, w: int, h: int,
                                start: Node, end: Node)
    requires ReadObstacleCount(scan, a, pos, c, w, h, start, end).Ok?
    requires Agree(a, b, pos, ReadObstacleCount(scan, a, pos, c, w, h, start, end).value.1)
    ensures ReadObstacleCount(scan, b, pos, c, w, h, start, end) == ReadObstacleCount(scan, a, pos, c, w, h, start, end)
  {
    assert a[pos] == b[pos];
    GridDetermined(scan, a, b, pos + 1, c, w, h, start, end, Fields(scan, a[pos], 1).value[0]);
  }

  lemma PointsDetermined(scan: Scanner, a: seq<string>, b: seq<string>, pos: nat, c: int, w: int, h: int)
    requires ReadPoints(scan, a, pos, c, w, h).Ok?
    requires Agree(a, b, pos, ReadPoints(scan, a, pos, c, w, h).value.1)
    ensures ReadPoints(scan, b, pos, c, w, h) == ReadPoints(scan, a, pos, c, w, h)
  {
    assert a[pos] == b[pos];
    var p := Fields(scan, a[pos], 4).value;
    ObstacleCountDetermined(scan, a, b, pos + 1, c, w, h, Node(p[0], p[1]), Node(p[2], p[3]));
  }

  lemma CaseDetermined(scan: Scanner, a: seq<string>, b: seq<string>, pos: nat, c: int)
    requires ReadCase(scan, a, pos, c).Ok?
    requires Agree(a, b, pos, ReadCase(scan, a, pos, c).value.1)
    ensures ReadCase(scan, b, pos, c) == ReadCase(scan, a, pos, c)
  {
    assert a[pos] == b[pos];
    var d := Fields(scan, a[pos], 2).value;
    PointsDetermined(scan, a, b, pos + 1, c, d[0], d[1]);
  }

  lemma {:induction false} CasesDetermined(scan: Scanner, a: seq<string>, b: seq<string>, pos: nat, i: int, n: int)
    requires ReadCases(scan, a, pos, i, n).Ok?
    requires Agree(a, b, pos, ReadCases(scan, a, pos, i, n).value.1) || i >= n
    ensures ReadCases(scan, b, pos, i, n) == ReadCases(scan, a, pos, i, n)
    decreases n - i
  {
    if i < n {
      var first := ReadCase(scan, a, pos, i + 1).value;
      var others := ReadCases(scan, a, first.1, i + 1, n).value;
      assert ReadCases(scan, a, pos, i, n).value.1 == others.1;
      CaseDetermined(scan, a, b, pos, i + 1);
      CasesDetermined(scan, a, b, first.1, i + 1, n);
      CasesCons(scan, b, pos, i, n, first.0, first.1, others.0, others.1);
    }
  }

  lemma CasesCons(scan: Scanner, lines: seq<string>, pos: nat, i: int, n: int,
                  first: Case, next: nat, others: seq<Case>, end: nat)
    requires i < n
    requires ReadCase(scan, lines, pos, i + 1) == Ok((first, next))
    requires ReadCases(scan, lines, next, i + 1, n) == Ok((others, end))
    ensures ReadCases(scan, lines, pos, i, n) == Ok(([first] + others, end))
  {
  }

  /** Cases read one after another, case k from line `starts[k]` to line
      `starts[k + 1]`, are what the reader of all cases returns. */
  lemma {:induction false} CasesFromEach(scan: Scanner, lines: seq<string>, starts: seq<nat>, cases: seq<Case>,
                                         i: int, n: int, pos: nat, end: nat)
    requires |starts| == |cases| + 1 && i + |cases| == n
    requires starts[0] == pos && starts[|cases|] == end
    requires forall k :: 0 <= k < |cases| ==>
      ReadCase(scan, lines, starts[k], i + k + 1) == Ok((cases[k], starts[k + 1]))
    ensures ReadCases(scan, lines, pos, i, n) == Ok((cases, end))
    decreases |cases|
  {
    if cases != [] {
      var rest, later := starts[1..], cases[1..];
      assert forall k :: 0 <= k < |later| ==> later[k] == cases[k + 1] && rest[k] == starts[k + 1];
      CasesFromEach(scan, lines, rest, later, i + 1, n, starts[1], end);
      CasesCons(scan, lines, pos, i, n, cases[0], starts[1], later, end);
      assert [cases[0]] + later == cases;
    }
  }

  // ---------------------------------------------------------------------
  // A reader given fewer lines than it consumes reports the missing line
  // ---------------------------------------------------------------------

  /** The error for input that stops before line `k` of the case numbered
      `c` that starts at line `pos`: the first line missing is its
      dimensions, its points, its obstacle count or obstacle k - pos - 2. */
  function MissingAt(k: nat, pos: nat, c: int): ParseError
    requires pos <= k
  {
    if k == pos then MissingDimensions(c)
    else if k == pos + 1 then MissingPoints(c)
    else if k == pos + 2 then MissingObstacleCount(c)
    else MissingObstacle(k - pos - 2, c)
  }

  lemma {:induction false} ObstaclesTruncated(scan: Scanner, a: seq<string>, k: nat, pos: nat, grid: Grid,
                                              w: int, h: int, j: int, count: int, c: int)
    requires Shaped(grid, w, h)
    requires ReadObstacles(scan, a, pos, grid, w, h, j, count, c).Ok?
    requires pos <= k < ReadObstacles(scan, a, pos, grid, w, h, j, count, c).value.1
    ensures ReadObstacles(scan, a[..k], pos, grid, w, h, j, count, c) == Err(MissingObstacle(j + 1 + (k - pos), c))
    decreases count - j
  {
    if pos < k {
      var f := Fields(scan, a[pos], 4).value;
      var g := MarkRect(grid, w, h, f[0], f[1], f[2], f[3], j + 1, c).value;
      ObstaclesTruncated(scan, a, k, pos + 1, g, w, h, j + 1, count, c);
    }
  }

  lemma GridTruncated(scan: Scanner, a: seq<string>, k: nat, pos: nat, c: int, w: int, h: int,
                      start: Node, end: Node, n: int)
    requires ReadGrid(scan, a, pos, c, w, h, start, end, n).Ok?
    requires pos <= k < ReadGrid(scan, a, pos, c, w, h, start, end, n).value.1
    ensures ReadGrid(scan, a[..k], pos, c, w, h, start, end, n) == Err(MissingObstacle(k - pos + 1, c))
  {
    ObstaclesTruncated(scan, a, k, pos, NewGrid(w, h).value, w, h, 0, n, c);
  }

  lemma ObstacleCountTruncated(scan: Scanner, a: seq<string>, k: nat, pos: nat, c: int, w: int, h: int,
                               start: Node, end: Node)
    requires ReadObstacleCount(scan, a, pos, c, w, h, start, end).Ok?
    requires pos <= k < ReadObstacleCount(scan, a, pos, c, w, h, start, end).value.1
    ensures ReadObstacleCount(scan, a[..k], pos, c, w, h, start, end)
         == Err(if k == pos then MissingObstacleCount(c) else MissingObstacle(k - pos, c))
  {
    if pos < k {
      GridTruncated(scan, a, k, pos + 1, c, w, h, start, end, Fields(scan, a[pos], 1).value[0]);
    }
  }

  lemma PointsTruncated(scan: Scanner, a: seq<string>, k: nat, pos: nat, c: int, w: int, h: int)
    requires ReadPoints(scan, a, pos, c, w, h).Ok?
    requires pos <= k < ReadPoints(scan, a, pos, c, w, h).value.1
    ensures ReadPoints(scan, a[..k], pos, c, w, h)
         == Err(if k == pos then MissingPoints(c)
                else if k == pos + 1 then MissingObstacleCount(c)
                else MissingObstacle(k - pos - 1, c))
  {
    if pos < k {
      var p := Fields(scan, a[pos], 4).value;
      ObstacleCountTruncated(scan, a, k, pos + 1, c, w, h, Node(p[0], p[1]), Node(p[2], p[3]));
    }
  }

  /** A case cut before line `k` reports the first of its lines that is
      missing, with its own number. */
  lemma CaseTruncated(scan: Scanner, a: seq<string>, k: nat, pos: nat, c: int)
    requires ReadCase(scan, a, pos, c).Ok?
    requires pos <= k < ReadCase(scan, a, pos, c).value.1
    ensures ReadCase(scan, a[..k], pos, c) == Err(MissingAt(k, pos, c))
  {
    if pos < k {
      var d := Fields(scan, a[pos], 2).value;
      PointsTruncated(scan, a, k, pos + 1, c, d[0], d[1]);
    }
  }

  /** The error for input cut before line `k` of cases i + 1, i + 2, ...
      laid out from line `pos`: the missing line of the case holding line `k`. */
  function CutError(k: nat, pos: nat, cases: seq<Case>, i: int): ParseError
    requires pos <= k
    decreases |cases|
  {
    if cases == [] || k < pos + CaseLines(cases[0]) then MissingAt(k, pos, i + 1)
    else CutError(k, pos + CaseLines(cases[0]), cases[1..], i + 1)
  }

  lemma {:induction false} CasesTruncated(scan: Scanner, a: seq<string>, k: nat, pos: nat, i: int, n: int,
                                          cases: seq<Case>, end: nat)
    requires ReadCases(scan, a, pos, i, n) == Ok((cases, end))
    requires pos <= k < end
    ensures ReadCases(scan, a[..k], pos, i, n) == Err(CutError(k, pos, cases, i))
    decreases n - i
  {
    var first, next, others := CasesSplit(scan, a, pos, i, n, cases, end);
    var e := CutError(k, pos, cases, i);
    CutErrorCons(k, pos, cases, first, others, i);
    if k < next {
      CasesCutInFirst(scan, a, k, pos, i, n, first, next, e);
    } else {
      CasesTruncated(scan, a, k, next, i + 1, n, others, end);
      CasesCutLater(scan, a, k, pos, i, n, first, next, e);
    }
  }

  /** Cases read from a non-empty span of lines are a first case and the
      cases read after it. */
  lemma CasesSplit(scan: Scanner, a: seq<string>, pos: nat, i: int, n: int, cases: seq<Case>, end: nat)
    returns (first: Case, next: nat, others: seq<Case>)
    requires ReadCases(scan, a, pos, i, n) == Ok((cases, end))
    requires pos < end
    ensures i < n && cases == [first] + others && next == pos + CaseLines(first)
    ensures ReadCase(scan, a, pos, i + 1) == Ok((first, next))
    ensures ReadCases(scan, a, next, i + 1, n) == Ok((others, end))
  {
    var f := ReadCase(scan, a, pos, i + 1).value;
    var o := ReadCases(scan, a, f.1, i + 1, n).value;
    first, next, others := f.0, f.1, o.0;
    CasesCons(scan, a, pos, i, n, first, next, others, o.1);
  }

  /** A cut inside the first case's lines fails that case. */
  lemma CasesCutInFirst(scan: Scanner, a: seq<string>, k: nat, pos: nat, i: int, n: int, first: Case, next: nat,
                        e: ParseError)
    requires i < n
    requires ReadCase(scan, a, pos, i + 1) == Ok((first, next))
    requires pos <= k < next
    requires e == MissingAt(k, pos, i + 1)
    ensures ReadCases(scan, a[..k], pos, i, n) == Err(e)
  {
    CaseTruncated(scan, a, k, pos, i + 1);
    CasesFirstFails(scan, a[..k], pos, i, n, e);
  }

  /** A cut after the first case's lines leaves that case whole, so the
      error comes from the cases after it. */
  lemma CasesCutLater(scan: Scanner, a: seq<string>, k: nat, pos: nat, i: int, n: int, first: Case, next: nat,
                      e: ParseError)
    requires i < n
    requires ReadCase(scan, a, pos, i + 1) == Ok((first, next))
    requires next <= k <= |a|
    requires ReadCases(scan, a[..k], next, i + 1, n) == Err(e)
    ensures ReadCases(scan, a[..k], pos, i, n) == Err(e)
  {
    CaseDetermined(scan, a, a[..k], pos, i + 1);
    CasesSkip(scan, a[..k], pos, i, n, first, next, e);
  }

  lemma CutErrorCons(k: nat, pos: nat, cases: seq<Case>, first: Case, others: seq<Case>, i: int)
    requires pos <= k && cases == [first] + others
    ensures k < pos + CaseLines(first) ==> CutError(k, pos, cases, i) == MissingAt(k, pos, i + 1)
    ensures k >= pos + CaseLines(first) ==>
      CutError(k, pos, cases, i) == CutError(k, pos + CaseLines(first), others, i + 1)
  {
    assert cases[0] == first && cases[1..] == others;
  }

  /** The first line of each of `cases` when they follow one another from
      line `pos` on. */
  function Starts(pos: nat, cases: seq<Case>): (s: seq<nat>)
    ensures |s| == |cases|
    decreases |cases|
  {
    if cases == [] then [] else [pos] + Starts(pos + CaseLines(cases[0]), cases[1..])
  }

  /** The line just after the last of `cases`, laid out from line `pos`. */
  function EndOf(pos: nat, cases: seq<Case>): nat
    decreases |cases|
  {
    if cases == [] then pos else EndOf(pos + CaseLines(cases[0]), cases[1..])
  }

  /** Which of `cases`, laid out from line `pos`, holds line `k`. */
  function CaseAt(k: nat, pos: nat, cases: seq<Case>): nat
    decreases |cases|
  {
    if cases == [] || k < pos + CaseLines(cases[0]) then 0
    else 1 + CaseAt(k, pos + CaseLines(cases[0]), cases[1..])
  }

  /** Line `k` lies in the lines of case m of `cases`, laid out from line `pos`. */
  predicate Within(k: nat, pos: nat, cases: seq<Case>, m: nat)
  {
    m < |cases| && Starts(pos, cases)[m] <= k < Starts(pos, cases)[m] + CaseLines(cases[m])
  }

  /** The cut error names the case whose lines hold line `k`, counting from
      i + 1, and the first of its lines that is missing. */
  lemma {:induction false} CutErrorNamesCase(k: nat, pos: nat, cases: seq<Case>, i: int)
    requires pos <= k < EndOf(pos, cases)
    ensures var m := CaseAt(k, pos, cases);
      && Within(k, pos, cases, m)
      && CutError(k, pos, cases, i) == MissingAt(k, Starts(pos, cases)[m], i + 1 + m)
    decreases |cases|
  {
    var first, others := cases[0], cases[1..];
    assert cases == [first] + others;
    StartsCons(pos, first, others);
    if k >= pos + CaseLines(first) {
      CutErrorNamesCase(k, pos + CaseLines(first), others, i + 1);
    }
  }

  /** Laid out cases end where their lines end. */
  lemma {:induction false} LaidOutEnd(scan: Scanner, lines: seq<string>, pos: nat, cases: seq<Case>, end: nat)
    requires LaidOut(scan, lines, pos, cases, end)
    ensures end == EndOf(pos, cases)
    decreases |cases|
  {
    if cases != [] {
      LaidOutEnd(scan, lines, pos + CaseLines(cases[0]), cases[1..], end);
    }
  }

  lemma StartsCons(pos: nat, c: Case, cs: seq<Case>)
    ensures Starts(pos, [c] + cs) == [pos] + Starts(pos + CaseLines(c), cs)
  {
    assert ([c] + cs)[1..] == cs;
  }

  lemma CasesFirstFails(scan: Scanner, lines: seq<string>, pos: nat, i: int, n: int, e: ParseError)
    requires i < n
    requires ReadCase(scan, lines, pos, i + 1) == Err(e)
    ensures ReadCases(scan, lines, pos, i, n) == Err(e)
  {
  }

  lemma CasesSkip(scan: Scanner, lines: seq<string>, pos: nat, i: int, n: int,
                  first: Case, next: nat, e: ParseError)
    requires i < n
    requires ReadCase(scan, lines, pos, i + 1) == Ok((first, next))
    requires ReadCases(scan, lines, next, i + 1, n) == Err(e)
    ensures ReadCases(scan, lines, pos, i, n) == Err(e)
  {
  }

  // ---------------------------------------------------------------------
  // A line that does not read is reported as a parse error
  // ---------------------------------------------------------------------

  /** How many integers the line is read with whose absence is error `e`:
      2 for the dimensions, 4 for the points, 1 for the obstacle count and 4
      for an obstacle. */
  function Arity(e: ParseError): nat
  {
    match e
    case MissingDimensions(_) => 2
    case MissingObstacleCount(_) => 1
    case _ => 4
  }

  /** The parse error of the line whose absence is error `e`: the same
      line of the same case, present but not readable. */
  function Unparsed(e: ParseError): (r: ParseError)
    ensures e.IsMissingLine() ==> r.InCase() && !r.IsMissingLine() && r.testCase == e.testCase
  {
    match e
    case MissingDimensions(c) => BadDimensions(c)
    case MissingPoints(c) => BadPoints(c)
    case MissingObstacleCount(c) => BadObstacleCount(c)
    case MissingObstacle(j, c) => BadObstacle(j, c)
    case _ => e
  }

  lemma {:induction false} ObstaclesBadLine(scan: Scanner, a: seq<string>, k: nat, bad: string, pos: nat,
                                            grid: Grid, w: int, h: int, j: int, count: int, c: int)
    requires Shaped(grid, w, h)
    requires ReadObstacles(scan, a, pos, grid, w, h, j, count, c).Ok?
    requires pos <= k < ReadObstacles(scan, a, pos, grid, w, h, j, count, c).value.1
    requires Fields(scan, bad, 4).None?
    ensures ReadObstacles(scan, a[k := bad], pos, grid, w, h, j, count, c) == Err(BadObstacle(j + 1 + (k - pos), c))
    decreases count - j
  {
    if pos < k {
      var f := Fields(scan, a[pos], 4).value;
      var g := MarkRect(grid, w, h, f[0], f[1], f[2], f[3], j + 1, c).value;
      assert a[k := bad][pos] == a[pos];
      ObstaclesBadLine(scan, a, k, bad, pos + 1, g, w, h, j + 1, count, c);
    } else {
      assert a[k := bad][pos] == bad;
    }
  }

  lemma GridBadLine(scan: Scanner, a: seq<string>, k: nat, bad: string, pos: nat, c: int, w: int, h: int,
                    start: Node, end: Node, n: int)
    requires ReadGrid(scan, a, pos, c, w, h, start, end, n).Ok?
    requires pos <= k < ReadGrid(scan, a, pos, c, w, h, start, end, n).value.1
    requires Fields(scan, bad, 4).None?
    ensures ReadGrid(scan, a[k := bad], pos, c, w, h, start, end, n) == Err(BadObstacle(k - pos + 1, c))
  {
    ObstaclesBadLine(scan, a, k, bad, pos, NewGrid(w, h).value, w, h, 0, n, c);
  }

  lemma ObstacleCountBadLine(scan: Scanner, a: seq<string>, k: nat, bad: string, pos: nat, c: int, w: int, h: int,
                             start: Node, end: Node)
    requires ReadObstacleCount(scan, a, pos, c, w, h, start, end).Ok?
    requires pos <= k < ReadObstacleCount(scan, a, pos, c, w, h, start, end).value.1
    requires Fields(scan, bad, if k == pos then 1 else 4).None?
    ensures ReadObstacleCount(scan, a[k := bad], pos, c, w, h, start, end)
         == Err(if k == pos then BadObstacleCount(c) else BadObstacle(k - pos, c))
  {
    if pos < k {
      assert a[k := bad][pos] == a[pos];
      GridBadLine(scan, a, k, bad, pos + 1, c, w, h, start, end, Fields(scan, a[pos], 1).value[0]);
    } else {
      assert a[k := bad][pos] == bad;
    }
  }

  lemma PointsBadLine(scan: Scanner, a: seq<string>, k: nat, bad: string, pos: nat, c: int, w: int, h: int)
    requires ReadPoints(scan, a, pos, c, w, h).Ok?
    requires pos <= k < ReadPoints(scan, a, pos, c, w, h).value.1
    requires Fields(scan, bad, if k == pos + 1 then 1 else 4).None?
    ensures ReadPoints(scan, a[k := bad], pos, c, w, h)
         == Err(if k == pos then BadPoints(c)
                else if k == pos + 1 then BadObstacleCount(c)
                else BadObstacle(k - pos - 1, c))
  {
    if pos < k {
      var p := Fields(scan, a[pos], 4).value;
      assert a[k := bad][pos] == a[pos];
      ObstacleCountBadLine(scan, a, k, bad, pos + 1, c, w, h, Node(p[0], p[1]), Node(p[2], p[3]));
    } else {
      assert a[k := bad][pos] == bad;
    }
  }

  /** A case whose line `k` is replaced by one that does not read as that
      line reports that the line failed to parse: its dimensions, its
      points, its obstacle count or obstacle k - pos - 2, with the case's
      own number. */
  lemma CaseBadLine(scan: Scanner, a: seq<string>, k: nat, bad: string, pos: nat, c: int)
    requires ReadCase(scan, a, pos, c).Ok?
    requires pos <= k < ReadCase(scan, a, pos, c).value.1
    requires Fields(scan, bad, Arity(MissingAt(k, pos, c))).None?
    ensures ReadCase(scan, a[k := bad], pos, c) == Err(Unparsed(MissingAt(k, pos, c)))
  {
    if pos < k {
      var d := Fields(scan, a[pos], 2).value;
      assert a[k := bad][pos] == a[pos];
      PointsBadLine(scan, a, k, bad, pos + 1, c, d[0], d[1]);
    } else {
      assert a[k := bad][pos] == bad;
    }
  }

  /** Cases whose line `k` is replaced by one that does not read as that
      line report the parse error of the line an input cut there would miss. */
  lemma {:induction false} CasesBadLine(scan: Scanner, a: seq<string>, k: nat, bad: string, pos: nat, i: int, n: int,
                                        cases: seq<Case>, end: nat)
    requires ReadCases(scan, a, pos, i, n) == Ok((cases, end))
    requires pos <= k < end
    requires Fields(scan, bad, Arity(CutError(k, pos, cases, i))).None?
    ensures ReadCases(scan, a[k := bad], pos, i, n) == Err(Unparsed(CutError(k, pos, cases, i)))
    decreases n - i
  {
    var first, next, others := CasesSplit(scan, a, pos, i, n, cases, end);
    var e := Unparsed(CutError(k, pos, cases, i));
    CutErrorCons(k, pos, cases, first, others, i);
    if k < next {
      CasesBadInFirst(scan, a, k, bad, pos, i, n, first, next);
    } else {
      CasesBadLine(scan, a, k, bad, next, i + 1, n, others, end);
      CasesBadLater(scan, a, k, bad, pos, i, n, first, next, e);
    }
  }

  /** A bad line among the first case's lines fails that case. */
  lemma CasesBadInFirst(scan: Scanner, a: seq<string>, k: nat, bad: string, pos: nat, i: int, n: int,
                        first: Case, next: nat)
    requires i < n
    requires ReadCase(scan, a, pos, i + 1) == Ok((first, next))
    requires pos <= k < next
    requires Fields(scan, bad, Arity(MissingAt(k, pos, i + 1))).None?
    ensures ReadCases(scan, a[k := bad], pos, i, n) == Err(Unparsed(MissingAt(k, pos, i + 1)))
  {
    CaseBadLine(scan, a, k, bad, pos, i + 1);
    CasesFirstFails(scan, a[k := bad], pos, i, n, Unparsed(MissingAt(k, pos, i + 1)));
  }

  /** A bad line after the first case's lines leaves that case whole, so
      the error comes from the cases after it. */
  lemma CasesBadLater(scan: Scanner, a: seq<string>, k: nat, bad: string, pos: nat, i: int, n: int,
                      first: Case, next: nat, e: ParseError)
    requires i < n
    requires ReadCase(scan, a, pos, i + 1) == Ok((first, next))
    requires next <= k < |a|
    requires ReadCases(scan, a[k := bad], next, i + 1, n) == Err(e)
    ensures ReadCases(scan, a[k := bad], pos, i, n) == Err(e)
  {
    CaseDetermined(scan, a, a[k := bad], pos, i + 1);
    CasesSkip(scan, a[k := bad], pos, i, n, first, next, e);
  }

  // ---------------------------------------------------------------------
  // The whole input
  // ---------------------------------------------------------------------

  /** Lines after a complete input are rejected: the cases read are
      discarded and the error is the extra-data one. */
  lemma ExtraLinesRejected(scan: Scanner, lines: seq<string>, more: seq<string>)
    requires Get(scan, lines).Ok?
    requires |more| > 0
    ensures Get(scan, lines + more) == Err(ExtraData)
  {
    var n := Fields(scan, lines[0], 1).value[0];
    assert (lines + more)[0] == lines[0];
    CasesDetermined(scan, lines, lines + more, 1, 0, n);
  }

  /** An input cut short after its first line but before its end reports
      the first missing line of the declared case whose lines it cuts, with
      that case's number. */
  lemma TruncationReportsMissingLine(scan: Scanner, lines: seq<string>, k: nat)
    requires Get(scan, lines).Ok?
    requires 1 <= k < |lines|
    ensures var cases := Get(scan, lines).value;
      var m := CaseAt(k, 1, cases);
      && Within(k, 1, cases, m)
      && Get(scan, lines[..k]) == Err(MissingAt(k, Starts(1, cases)[m], m + 1))
  {
    var n := Fields(scan, lines[0], 1).value[0];
    assert lines[..k][0] == lines[0];
    var read := ReadCases(scan, lines, 1, 0, n).value;
    CasesTruncated(scan, lines, k, 1, 0, n, read.0, read.1);
    LaidOutEnd(scan, lines, 1, read.0, read.1);
    CutErrorNamesCase(k, 1, read.0, 0);
  }

  /** A complete input with one line after the first replaced by a line
      that does not read as that line reports that the line failed to
      parse, as a line of the declared case whose lines hold it, with that
      case's number. */
  lemma BadLineReported(scan: Scanner, lines: seq<string>, k: nat, bad: string)
    requires Get(scan, lines).Ok?
    requires 1 <= k < |lines|
    ensures var cases := Get(scan, lines).value;
      Within(k, 1, cases, CaseAt(k, 1, cases))
    ensures var cases := Get(scan, lines).value;
      var m := CaseAt(k, 1, cases);
      var missing := MissingAt(k, Starts(1, cases)[m], m + 1);
      Fields(scan, bad, Arity(missing)).None? ==> Get(scan, lines[k := bad]) == Err(Unparsed(missing))
  {
    var n := Fields(scan, lines[0], 1).value[0];
    assert lines[k := bad][0] == lines[0];
    var read := ReadCases(scan, lines, 1, 0, n).value;
    LaidOutEnd(scan, lines, 1, read.0, read.1);
    CutErrorNamesCase(k, 1, read.0, 0);
    if Fields(scan, bad, Arity(CutError(k, 1, read.0, 0))).None? {
      CasesBadLine(scan, lines, k, bad, 1, 0, n, read.0, read.1);
    }
  }

  // ---------------------------------------------------------------------
  // Negative dimensions
  // ---------------------------------------------------------------------

  /** A case whose first three lines read, with a negative width, stops the
      program: the grid's `make` panics before any obstacle line is read, and
      no error value is returned. */
  lemma NegativeWidthPanics(scan: Scanner, lines: seq<string>, pos: nat, c: int)
    requires pos + 2 < |lines|
    requires Fields(scan, lines[pos], 2).Some? && Fields(scan, lines[pos], 2).value[0] < 0
    requires Fields(scan, lines[pos + 1], 4).Some? && Fields(scan, lines[pos + 2], 1).Some?
    ensures ReadCase(scan, lines, pos, c) == Crash(NegativeLength)
  {
  }

  /** A first case with a negative width stops the whole read with a panic. */
  lemma FirstCaseNegativeWidth(scan: Scanner, lines: seq<string>)
    requires 3 < |lines|
    requires Fields(scan, lines[0], 1).Some? && Fields(scan, lines[0], 1).value[0] >= 1
    requires Fields(scan, lines[1], 2).Some? && Fields(scan, lines[1], 2).value[0] < 0
    requires Fields(scan, lines[2], 4).Some? && Fields(scan, lines[3], 1).Some?
    ensures Get(scan, lines) == Crash(NegativeLength)
  {
    NegativeWidthPanics(scan, lines, 1, 1);
  }

  // ---------------------------------------------------------------------
  // Error messages
  // ---------------------------------------------------------------------

  /** Which of the message templates a text follows, told apart by the
      characters at positions 0, 10, 16, 26 and 27; the three "missing line"
      messages of a case share kind 4. */
  function Kind(m: string): nat
  {
    if |m| < 28 then 0
    else if m[0] == 'e' then 1
    else if m[0] == 'o' then 2
    else if m[0] == 'n' then (if m[27] == 'o' then 3 else 4)
    else if m[10] == 'r' then 5
    else if m[16] == 'w' then 6
    else if m[16] == 's' then 7
    else if m[16] == 'o' then 8
    else if m[26] == 't' then 9
    else 10
  }

  lemma MessageKind(e: ParseError)
    ensures Kind(Message(e)) == match e
      case ExtraData => 1
      case ObstacleOutOfBounds(_, _) => 2
      case MissingObstacle(_, _) => 3
      case MissingDimensions(_) => 4
      case MissingPoints(_) => 4
      case MissingObstacleCount(_) => 4
      case ReadCountFailed => 5
      case BadDimensions(_) => 6
      case BadPoints(_) => 7
      case BadObstacle(_, _) => 8
      case ParseCountFailed => 9
      case BadObstacleCount(_) => 10
  {
  }

  /** Text `p` followed by a printed int and text not starting with a digit
      gives back the int and the text. */
  lemma Peel(p: string, a: int, q: string, b: int, r: string)
    requires p + (Text.IntToString(a) + q) == p + (Text.IntToString(b) + r)
    requires |q| > 0 ==> !Text.IsDigit(q[0])
    requires |r| > 0 ==> !Text.IsDigit(r[0])
    ensures a == b && q == r
  {
    assert (p + (Text.IntToString(a) + q))[|p|..] == Text.IntToString(a) + q;
    assert (p + (Text.IntToString(b) + r))[|p|..] == Text.IntToString(b) + r;
    Text.NumberThenText(a, q, b, r);
  }

  /** Text `p` followed by a printed int gives back the int. */
  lemma PeelLast(p: string, a: int, b: int)
    requires p + Text.IntToString(a) == p + Text.IntToString(b)
    ensures a == b
  {
    assert (p + Text.IntToString(a))[|p|..] == Text.IntToString(a);
    assert (p + Text.IntToString(b))[|p|..] == Text.IntToString(b);
    Text.IntToStringInjective(a, b);
  }

  /** The text after the case number of a "missing line" message. */
  function MissingTail(e: ParseError): string
  {
    match e
    case MissingDimensions(_) => ": missing width and height"
    case MissingPoints(_) => ": missing start and end points"
    case _ => ": missing number of obstacles"
  }

  /** Distinct errors have distinct messages: the text names the failure,
      the test case and the obstacle it is about. */
  lemma MessageIdentifiesError(e1: ParseError, e2: ParseError)
    requires Message(e1) == Message(e2)
    ensures e1 == e2
  {
    MessageKind(e1);
    MessageKind(e2);
    if e1.MissingDimensions? || e1.MissingPoints? || e1.MissingObstacleCount? {
      MissingLineIdentified(e1, e2);
    } else if e1.BadDimensions? {
      PeelLast(FailedToParse + "width and height for test case ", e1.testCase, e2.testCase);
    } else if e1.BadPoints? {
      PeelLast(FailedToParse + "start and end points for test case ", e1.testCase, e2.testCase);
    } else if e1.BadObstacleCount? {
      PeelLast(FailedToParse + "number of obstacles for test case ", e1.testCase, e2.testCase);
    } else if e1.MissingObstacle? || e1.BadObstacle? {
      ObstacleLineIdentified(e1, e2);
    } else if e1.ObstacleOutOfBounds? {
      OutOfBoundsIdentified(e1, e2);
    }
  }

  lemma Regroup(a: string, b: string, c: string)
    ensures (a + b) + c == a + (b + c)
  {
  }

  lemma MissingLineIdentified(e1: ParseError, e2: ParseError)
    requires e1.MissingDimensions? || e1.MissingPoints? || e1.MissingObstacleCount?
    requires e2.MissingDimensions? || e2.MissingPoints? || e2.MissingObstacleCount?
    requires Message(e1) == Message(e2)
    ensures e1 == e2
  {
    var p, s := NotEnough + "test case ", Text.IntToString;
    Regroup(p, s(e1.testCase), MissingTail(e1));
    Regroup(p, s(e2.testCase), MissingTail(e2));
    Peel(p, e1.testCase, MissingTail(e1), e2.testCase, MissingTail(e2));
  }

  /** The messages about one obstacle line: its number, then the case's. */
  lemma ObstacleLineIdentified(e1: ParseError, e2: ParseError)
    requires (e1.MissingObstacle? && e2.MissingObstacle?) || (e1.BadObstacle? && e2.BadObstacle?)
    requires Message(e1) == Message(e2)
    ensures e1 == e2
  {
    var s := Text.IntToString;
    var p := if e1.MissingObstacle? then NotEnough + "obstacle " else FailedToParse + "obstacle ";
    var q := if e1.MissingObstacle? then " in test case " else " for test case ";
    Regroup(p + s(e1.obstacle), q, s(e1.testCase));
    Regroup(p, s(e1.obstacle), q + s(e1.testCase));
    Regroup(p + s(e2.obstacle), q, s(e2.testCase));
    Regroup(p, s(e2.obstacle), q + s(e2.testCase));
    Peel(p, e1.obstacle, q + s(e1.testCase), e2.obstacle, q + s(e2.testCase));
    PeelLast(q, e1.testCase, e2.testCase);
  }

  lemma OutOfBoundsIdentified(e1: ParseError, e2: ParseError)
    requires e1.ObstacleOutOfBounds? && e2.ObstacleOutOfBounds?
    requires Message(e1) == Message(e2)
    ensures e1 == e2
  {
    var s := Text.IntToString;
    var p, q, r := "obstacle ", " for test case ", " is out of grid bounds";
    var j1, c1, j2, c2 := s(e1.obstacle), s(e1.testCase), s(e2.obstacle), s(e2.testCase);
    Regroup(p + j1 + q, c1, r);
    Regroup(p + j1, q, c1 + r);
    Regroup(p, j1, q + (c1 + r));
    Regroup(p + j2 + q, c2, r);
    Regroup(p + j2, q, c2 + r);
    Regroup(p, j2, q + (c2 + r));
    Peel(p, e1.obstacle, q + (c1 + r), e2.obstacle, q + (c2 + r));
    Peel(q, e1.testCase, r, e2.testCase, r);
  }
}

=== FILE: provider_render.dfy ===
/** The inverse of the parser: case descriptions written out as input lines,
    and the round trip from descriptions through text back to cases.

    A description lists a case's dimensions, its start and end points and its
    obstacle rectangles. `format` writes a line of integers; it is only
    assumed to be read back by the scanner (`Inverts`), as `fmt.Sscanf` reads
    back what space-separated decimal printing writes. */
module ProviderRender {
  import opened Domain
  import opened CaseProvider
  import ProviderLaws

  /** An obstacle line `x1 x2 y1 y2`: the inclusive rectangle [x1, x2] by [y1, y2]. */
  datatype Rect = Rect(x1: int, x2: int, y1: int, y2: int)

  datatype CaseText = CaseText(width: int, height: int, start: Node, end: Node, obstacles: seq<Rect>)

  type Formatter = seq<int> -> string

  /** The line the formatter writes for `xs`. */
  ghost function Written(format: Formatter, xs: seq<int>): string
  {
    format(xs)
  }

  /** The scanner reads back every line the formatter writes. */
  ghost predicate Inverts(scan: Scanner, format: Formatter)
  {
    forall xs: seq<int> {:trigger Written(format, xs)} :: scan(Written(format, xs), |xs|) == Some(xs)
  }

  function RectLine(format: Formatter, r: Rect): string
  {
    format([r.x1, r.x2, r.y1, r.y2])
  }

  function RenderRects(format: Formatter, rs: seq<Rect>): seq<string>
  {
    seq(|rs|, k requires 0 <= k < |rs| => RectLine(format, rs[k]))
  }

  function RenderCase(format: Formatter, t: CaseText): seq<string>
  {
    [format([t.width, t.height]), format([t.start.x, t.start.y, t.end.x, t.end.y]), format([|t.obstacles|])]
      + RenderRects(format, t.obstacles)
  }

  /** Cases i .. |ts| - 1, one after the other. */
  function RenderCases(format: Formatter, ts: seq<CaseText>, i: nat): seq<string>
    decreases |ts| - i
  {
    if i >= |ts| then [] else RenderCase(format, ts[i]) + RenderCases(format, ts, i + 1)
  }

  /** A whole input: the number of cases, then the cases. */
  function Render(format: Formatter, ts: seq<CaseText>): seq<string>
  {
    [format([|ts|])] + RenderCases(format, ts, 0)
  }

  /** The rectangle is empty or lies on a `w` by `h` grid. */
  predicate RectOk(r: Rect, w: int, h: int)
  {
    r.x1 > r.x2 || r.y1 > r.y2 || (0 <= r.x1 && r.x2 < w && 0 <= r.y1 && r.y2 < h)
  }

  /** A description the parser accepts. */
  predicate Sensible(t: CaseText)
  {
    && 0 <= t.width && 0 <= t.height
    && forall k :: 0 <= k < |t.obstacles| ==> RectOk(t.obstacles[k], t.width, t.height)
  }

  /** Cell (x, y) lies in one of the rectangles. */
  predicate Blocked(rs: seq<Rect>, x: int, y: int)
  {
    exists k :: 0 <= k < |rs| && InRect(rs[k].x1, rs[k].x2, rs[k].y1, rs[k].y2, x, y)
  }

  /** The column-first grid whose blocked cells are those of the rectangles. */
  function Covered(w: nat, h: nat, rs: seq<Rect>): (g: Grid)
    ensures Shaped(g, w, h)
  {
    seq(w, x => seq(h, y => Blocked(rs, x, y)))
  }

  /** The case a sensible description stands for, numbered `id`. */
  function Expected(t: CaseText, id: int): Case
    requires Sensible(t)
  {
    Case(id, t.width, t.height, Covered(t.width, t.height, t.obstacles), t.start, t.end, |t.obstacles|)
  }

  /** Cases i .. |ts| - 1, numbered from i + 1. */
  function ExpectedCases(ts: seq<CaseText>, i: nat): seq<Case>
    requires forall k :: 0 <= k < |ts| ==> Sensible(ts[k])
  {
    seq(if i <= |ts| then |ts| - i else 0, k requires 0 <= i + k < |ts| => Expected(ts[i + k], i + k + 1))
  }

  /** `block` appears in `lines` from position `pos` on. */
  predicate At(lines: seq<string>, pos: nat, block: seq<string>)
  {
    pos + |block| <= |lines| && lines[pos..pos + |block|] == block
  }

  lemma AtIndex(lines: seq<string>, pos: nat, block: seq<string>, k: nat)
    requires At(lines, pos, block) && k < |block|
    ensures lines[pos + k] == block[k]
  {
    assert lines[pos..pos + |block|][k] == lines[pos + k];
  }

  lemma AtSplit(lines: seq<string>, pos: nat, first: seq<string>, second: seq<string>)
    requires At(lines, pos, first + second)
    ensures At(lines, pos, first) && At(lines, pos + |first|, second)
  {
    var whole := lines[pos..pos + |first| + |second|];
    assert lines[pos..pos + |first|] == whole[..|first|] == first;
    assert lines[pos + |first|..pos + |first| + |second|] == whole[|first|..] == second;
  }

  /** Two grids of one shape with the same cells are the same grid. */
  lemma GridsEqual(g1: Grid, g2: Grid, w: int, h: int)
    requires Shaped(g1, w, h) && Shaped(g2, w, h)
    requires forall a, b :: 0 <= a < w && 0 <= b < h ==> g1[a][b] == g2[a][b]
    ensures g1 == g2
  {
    forall a | 0 <= a < w
      ensures g1[a] == g2[a]
    {
      assert forall b :: 0 <= b < h ==> g1[a][b] == g2[a][b];
    }
  }

  lemma FieldsOfFormat(scan: Scanner, format: Formatter, xs: seq<int>)
    requires Inverts(scan, format)
    ensures Fields(scan, format(xs), |xs|) == Some(xs)
  {
    assert scan(Written(format, xs), |xs|) == Some(xs);
  }

  /** Marking rectangle j on the grid of rectangles before it gives the grid
      of rectangles up to and including it. */
  lemma MarkNext(rs: seq<Rect>, j: nat, w: nat, h: nat, obstacle: int, c: int)
    requires j < |rs| && RectOk(rs[j], w, h)
    ensures var r := rs[j];
      MarkRect(Covered(w, h, rs[..j]), w, h, r.x1, r.x2, r.y1, r.y2, obstacle, c) == Ok(Covered(w, h, rs[..j + 1]))
  {
    var r := rs[j];
    var m := MarkRect(Covered(w, h, rs[..j]), w, h, r.x1, r.x2, r.y1, r.y2, obstacle, c);
    forall a, b | 0 <= a < w && 0 <= b < h
      ensures m.value[a][b] == Covered(w, h, rs[..j + 1])[a][b]
    {
      if Blocked(rs[..j + 1], a, b) {
        var k :| 0 <= k < j + 1 && InRect(rs[..j + 1][k].x1, rs[..j + 1][k].x2, rs[..j + 1][k].y1, rs[..j + 1][k].y2, a, b);
        if k < j {
          assert rs[..j][k] == rs[k];
        }
      }
      if Blocked(rs[..j], a, b) {
        var k :| 0 <= k < j && InRect(rs[..j][k].x1, rs[..j][k].x2, rs[..j][k].y1, rs[..j][k].y2, a, b);
        assert rs[..j + 1][k] == rs[k];
      }
      if InRect(r.x1, r.x2, r.y1, r.y2, a, b) {
        assert rs[..j + 1][j] == r;
      }
    }
    GridsEqual(m.value, Covered(w, h, rs[..j + 1]), w, h);
  }

  /** A grid of no rectangles is a fresh grid. */
  lemma NoneCovered(w: nat, h: nat, rs: seq<Rect>)
    ensures NewGrid(w, h) == Ok(Covered(w, h, rs[..0]))
  {
    GridsEqual(NewGrid(w, h).value, Covered(w, h, rs[..0]), w, h);
  }

  // ---------------------------------------------------------------------
  // Reading back what was written
  // ---------------------------------------------------------------------

  lemma {:induction false} ObstaclesRoundTrip(scan: Scanner, format: Formatter, lines: seq<string>, pos: nat,
                                              rs: seq<Rect>, j: nat, w: nat, h: nat, c: int)
    requires Inverts(scan, format)
    requires j <= |rs|
    requires forall k :: 0 <= k < |rs| ==> RectOk(rs[k], w, h)
    requires pos + (|rs| - j) <= |lines|
    requires forall k :: j <= k < |rs| ==> lines[pos + (k - j)] == RectLine(format, rs[k])
    ensures ReadObstacles(scan, lines, pos, Covered(w, h, rs[..j]), w, h, j, |rs|, c)
         == Ok((Covered(w, h, rs), pos + (|rs| - j)))
    decreases |rs| - j
  {
    if j < |rs| {
      var r := rs[j];
      assert lines[pos] == RectLine(format, r);
      FieldsOfFormat(scan, format, [r.x1, r.x2, r.y1, r.y2]);
      MarkNext(rs, j, w, h, j + 1, c);
      ObstaclesRoundTrip(scan, format, lines, pos + 1, rs, j + 1, w, h, c);
    } else {
      assert rs[..j] == rs;
    }
  }

  lemma CaseRoundTrip(scan: Scanner, format: Formatter, lines: seq<string>, pos: nat, t: CaseText, c: int)
    requires Inverts(scan, format)
    requires Sensible(t)
    requires At(lines, pos, RenderCase(format, t))
    ensures ReadCase(scan, lines, pos, c) == Ok((Expected(t, c), pos + |RenderCase(format, t)|))
  {
    var text := RenderCase(format, t);
    var w, h, rs := t.width, t.height, t.obstacles;
    AtIndex(lines, pos, text, 0);
    AtIndex(lines, pos, text, 1);
    AtIndex(lines, pos, text, 2);
    FieldsOfFormat(scan, format, [w, h]);
    FieldsOfFormat(scan, format, [t.start.x, t.start.y, t.end.x, t.end.y]);
    FieldsOfFormat(scan, format, [|rs|]);
    forall k | 0 <= k < |rs|
      ensures lines[pos + 3 + (k - 0)] == RectLine(format, rs[k])
    {
      AtIndex(lines, pos, text, 3 + k);
      assert text[3 + k] == RenderRects(format, rs)[k];
    }
    NoneCovered(w, h, rs);
    ObstaclesRoundTrip(scan, format, lines, pos + 3, rs, 0, w, h, c);
    var grid := ReadGrid(scan, lines, pos + 3, c, w, h, t.start, t.end, |rs|);
    assert grid == Ok((Expected(t, c), pos + 3 + |rs|));
    assert ReadObstacleCount(scan, lines, pos + 2, c, w, h, t.start, t.end) == grid;
    assert ReadPoints(scan, lines, pos + 1, c, w, h) == grid;
  }

  /** The lines of cases i, i + 1, ... are those of case i followed by
      those of the cases after it. */
  lemma NextCase(format: Formatter, lines: seq<string>, pos: nat, ts: seq<CaseText>, i: nat)
    requires i < |ts|
    requires At(lines, pos, RenderCases(format, ts, i))
    ensures At(lines, pos, RenderCase(format, ts[i]))
    ensures At(lines, pos + |RenderCase(format, ts[i])|, RenderCases(format, ts, i + 1))
    ensures |RenderCases(format, ts, i)| == |RenderCase(format, ts[i])| + |RenderCases(format, ts, i + 1)|
  {
    AtSplit(lines, pos, RenderCase(format, ts[i]), RenderCases(format, ts, i + 1));
  }

  /** The number of lines a description is written on. */
  function Size(t: CaseText): nat
  {
    3 + |t.obstacles|
  }

  lemma RenderCaseSize(format: Formatter, t: CaseText)
    ensures |RenderCase(format, t)| == Size(t)
  {
  }

  /** The number of lines of cases i .. j - 1. */
  function Before(ts: seq<CaseText>, i: nat, j: nat): nat
    decreases j - i
  {
    if i >= j || i >= |ts| then 0 else Size(ts[i]) + Before(ts, i + 1, j)
  }

  lemma {:induction false} BeforeStep(ts: seq<CaseText>, i: nat, j: nat)
    requires i <= j < |ts|
    ensures Before(ts, i, j + 1) == Before(ts, i, j) + Size(ts[j])
    decreases j - i
  {
    if i < j {
      BeforeStep(ts, i + 1, j);
    }
  }

  /** Cases i, i + 1, ... take as many lines as cases i .. |ts| - 1. */
  lemma {:induction false} RenderCasesSize(format: Formatter, ts: seq<CaseText>, i: nat)
    requires i <= |ts|
    ensures |RenderCases(format, ts, i)| == Before(ts, i, |ts|)
    decreases |ts| - i
  {
    if i < |ts| {
      RenderCaseSize(format, ts[i]);
      RenderCasesSize(format, ts, i + 1);
    }
  }

  /** Cases j, j + 1, ... are written right after cases i .. j - 1. */
  lemma {:induction false} AtLater(format: Formatter, lines: seq<string>, pos: nat, ts: seq<CaseText>, i: nat, j: nat)
    requires i <= j <= |ts|
    requires At(lines, pos, RenderCases(format, ts, i))
    ensures At(lines, pos + Before(ts, i, j), RenderCases(format, ts, j))
    decreases j - i
  {
    if i < j {
      NextCase(format, lines, pos, ts, i);
      RenderCaseSize(format, ts[i]);
      AtLater(format, lines, pos + Size(ts[i]), ts, i + 1, j);
    }
  }

  /** The first lines of cases i, i + 1, ... written from line `pos` on,
      followed by the line after the last of them. */
  function Offsets(ts: seq<CaseText>, i: nat, pos: nat): seq<nat>
  {
    seq<nat>(if i <= |ts| then |ts| - i + 1 else 1, k requires 0 <= k => (pos + Before(ts, i, i + k)) as nat)
  }

  /** Case j is written right after cases i .. j - 1. */
  lemma RenderedCaseAt(format: Formatter, lines: seq<string>, pos: nat, ts: seq<CaseText>, i: nat, j: nat)
    requires i <= j < |ts|
    requires At(lines, pos, RenderCases(format, ts, i))
    ensures At(lines, pos + Before(ts, i, j), RenderCase(format, ts[j]))
  {
    AtLater(format, lines, pos, ts, i, j);
    NextCase(format, lines, pos + Before(ts, i, j), ts, j);
  }

  /** One written case reads back as the case it describes, ending at `end`. */
  lemma CaseRoundTripTo(scan: Scanner, format: Formatter, lines: seq<string>, pos: nat, t: CaseText, c: int,
                        end: nat)
    requires Inverts(scan, format)
    requires Sensible(t)
    requires At(lines, pos, RenderCase(format, t)) && end == pos + Size(t)
    ensures ReadCase(scan, lines, pos, c) == Ok((Expected(t, c), end))
  {
    RenderCaseSize(format, t);
    CaseRoundTrip(scan, format, lines, pos, t, c);
  }

  /** Written case i + k starts right after cases i .. i + k - 1 and the
      next case starts right after it. */
  lemma CaseLocated(format: Formatter, lines: seq<string>, pos: nat, ts: seq<CaseText>, i: nat, k: nat)
    requires i + k < |ts|
    requires At(lines, pos, RenderCases(format, ts, i))
    ensures At(lines, pos + Before(ts, i, i + k), RenderCase(format, ts[i + k]))
    ensures Before(ts, i, i + k + 1) == Before(ts, i, i + k) + Size(ts[i + k])
  {
    RenderedCaseAt(format, lines, pos, ts, i, i + k);
    BeforeStep(ts, i, i + k);
  }

  /** Written case i + k, from its own first line on, reads back as the case
      it describes, and the next case starts where it ends. */
  lemma CaseAtOffset(scan: Scanner, format: Formatter, lines: seq<string>, pos: nat, ts: seq<CaseText>,
                     i: nat, k: nat)
    requires Inverts(scan, format)
    requires i + k < |ts| && Sensible(ts[i + k])
    requires At(lines, pos + Before(ts, i, i + k), RenderCase(format, ts[i + k]))
    ensures ReadCase(scan, lines, pos + Before(ts, i, i + k), i + k + 1)
         == Ok((Expected(ts[i + k], i + k + 1), pos + Before(ts, i, i + k) + Size(ts[i + k])))
  {
    CaseRoundTripTo(scan, format, lines, pos + Before(ts, i, i + k), ts[i + k], i + k + 1,
                    pos + Before(ts, i, i + k) + Size(ts[i + k]));
  }

  /** Case i + k, read from its offset, is the k-th expected case and ends
      at the next offset. */
  lemma OffsetReads(scan: Scanner, format: Formatter, lines: seq<string>, pos: nat, ts: seq<CaseText>,
                    i: nat, k: nat)
    requires Inverts(scan, format)
    requires forall m :: 0 <= m < |ts| ==> Sensible(ts[m])
    requires i + k < |ts|
    requires At(lines, pos, RenderCases(format, ts, i))
    ensures ReadCase(scan, lines, Offsets(ts, i, pos)[k], i + k + 1)
         == Ok((ExpectedCases(ts, i)[k], Offsets(ts, i, pos)[k + 1]))
  {
    CaseLocated(format, lines, pos, ts, i, k);
    CaseAtOffset(scan, format, lines, pos, ts, i, k);
  }

  /** Each written case, from its own first line on, reads back as the
      case it describes. */
  lemma EachCaseReads(scan: Scanner, format: Formatter, lines: seq<string>, pos: nat, ts: seq<CaseText>, i: nat)
    requires Inverts(scan, format)
    requires forall k :: 0 <= k < |ts| ==> Sensible(ts[k])
    requires i <= |ts|
    requires At(lines, pos, RenderCases(format, ts, i))
    ensures Offsets(ts, i, pos)[0] == pos
    ensures Offsets(ts, i, pos)[|ts| - i] == pos + |RenderCases(format, ts, i)|
    ensures forall k :: 0 <= k < |ts| - i ==>
      ReadCase(scan, lines, Offsets(ts, i, pos)[k], i + k + 1)
        == Ok((ExpectedCases(ts, i)[k], Offsets(ts, i, pos)[k + 1]))
  {
    assert Before(ts, i, i + 0) == 0;
    RenderCasesSize(format, ts, i);
    forall k | 0 <= k < |ts| - i
      ensures ReadCase(scan, lines, Offsets(ts, i, pos)[k], i + k + 1)
           == Ok((ExpectedCases(ts, i)[k], Offsets(ts, i, pos)[k + 1]))
    {
      OffsetReads(scan, format, lines, pos, ts, i, k);
    }
  }

  lemma CasesRoundTrip(scan: Scanner, format: Formatter, lines: seq<string>, pos: nat, ts: seq<CaseText>, i: nat)
    requires Inverts(scan, format)
    requires forall k :: 0 <= k < |ts| ==> Sensible(ts[k])
    requires At(lines, pos, RenderCases(format, ts, i))
    ensures ReadCases(scan, lines, pos, i, |ts|) == Ok((ExpectedCases(ts, i), pos + |RenderCases(format, ts, i)|))
  {
    if i <= |ts| {
      EachCaseReads(scan, format, lines, pos, ts, i);
      ProviderLaws.CasesFromEach(scan, lines, Offsets(ts, i, pos), ExpectedCases(ts, i), i, |ts|,
                                 pos, pos + |RenderCases(format, ts, i)|);
    } else {
      assert ExpectedCases(ts, i) == [] && RenderCases(format, ts, i) == [];
      assert ReadCases(scan, lines, pos, i, |ts|) == Ok(([], pos));
    }
  }

  /** Reading back a rendered input gives exactly the cases described,
      numbered from 1, with each obstacle rectangle marked on the grid. */
  lemma RoundTrip(scan: Scanner, format: Formatter, ts: seq<CaseText>)
    requires Inverts(scan, format)
    requires forall k :: 0 <= k < |ts| ==> Sensible(ts[k])
    ensures Get(scan, Render(format, ts)) == Ok(ExpectedCases(ts, 0))
  {
    var lines := Render(format, ts);
    FieldsOfFormat(scan, format, [|ts|]);
    assert At(lines, 0, lines) by {
      assert lines[0..|lines|] == lines;
    }
    AtSplit(lines, 0, [format([|ts|])], RenderCases(format, ts, 0));
    CasesRoundTrip(scan, format, lines, 1, ts, 0);
  }

  // ---------------------------------------------------------------------
  // A rectangle reaching past the grid
  // ---------------------------------------------------------------------

  /** Obstacle j of the description is the first one that does not fit: its
      corners are non-negative and it is not empty, but it reaches past the
      grid's far edge. */
  predicate FirstOutOfBounds(t: CaseText, j: nat)
  {
    && j < |t.obstacles|
    && 0 <= t.width && 0 <= t.height
    && (forall m :: 0 <= m < j ==> RectOk(t.obstacles[m], t.width, t.height))
    && var r := t.obstacles[j];
       0 <= r.x1 <= r.x2 && 0 <= r.y1 <= r.y2 && (r.x2 >= t.width || r.y2 >= t.height)
  }

  lemma {:induction false} ObstaclesOutOfBounds(scan: Scanner, format: Formatter, lines: seq<string>, pos: nat,
                                                rs: seq<Rect>, j: nat, bad: nat, w: nat, h: nat, c: int)
    requires Inverts(scan, format)
    requires j <= bad < |rs|
    requires FirstOutOfBounds(CaseText(w, h, Node(0, 0), Node(0, 0), rs), bad)
    requires pos + (|rs| - j) <= |lines|
    requires forall k :: j <= k < |rs| ==> lines[pos + (k - j)] == RectLine(format, rs[k])
    ensures ReadObstacles(scan, lines, pos, Covered(w, h, rs[..j]), w, h, j, |rs|, c)
         == Err(ObstacleOutOfBounds(bad + 1, c))
    decreases |rs| - j
  {
    var r := rs[j];
    assert lines[pos] == RectLine(format, r);
    FieldsOfFormat(scan, format, [r.x1, r.x2, r.y1, r.y2]);
    if j < bad {
      MarkNext(rs, j, w, h, j + 1, c);
      ObstaclesOutOfBounds(scan, format, lines, pos + 1, rs, j + 1, bad, w, h, c);
    }
  }

  lemma CaseOutOfBounds(scan: Scanner, format: Formatter, lines: seq<string>, pos: nat,
                        t: CaseText, bad: nat, c: int)
    requires Inverts(scan, format)
    requires FirstOutOfBounds(t, bad)
    requires At(lines, pos, RenderCase(format, t))
    ensures ReadCase(scan, lines, pos, c) == Err(ObstacleOutOfBounds(bad + 1, c))
  {
    var text := RenderCase(format, t);
    var w, h, rs := t.width, t.height, t.obstacles;
    AtIndex(lines, pos, text, 0);
    AtIndex(lines, pos, text, 1);
    AtIndex(lines, pos, text, 2);
    FieldsOfFormat(scan, format, [w, h]);
    FieldsOfFormat(scan, format, [t.start.x, t.start.y, t.end.x, t.end.y]);
    FieldsOfFormat(scan, format, [|rs|]);
    forall k | 0 <= k < |rs|
      ensures lines[pos + 3 + (k - 0)] == RectLine(format, rs[k])
    {
      AtIndex(lines, pos, text, 3 + k);
      assert text[3 + k] == RenderRects(format, rs)[k];
    }
    NoneCovered(w, h, rs);
    assert FirstOutOfBounds(CaseText(w, h, Node(0, 0), Node(0, 0), rs), bad);
    ObstaclesOutOfBounds(scan, format, lines, pos + 3, rs, 0, bad, w, h, c);
    var grid := ReadGrid(scan, lines, pos + 3, c, w, h, t.start, t.end, |rs|);
    assert grid == Err(ObstacleOutOfBounds(bad + 1, c));
    assert ReadObstacleCount(scan, lines, pos + 2, c, w, h, t.start, t.end) == grid;
    assert ReadPoints(scan, lines, pos + 1, c, w, h) == grid;
  }

  /** Case i holds the rectangle that does not fit: reading stops there. */
  lemma FailCase(scan: Scanner, format: Formatter, lines: seq<string>, pos: nat, t: CaseText,
                 bad: nat, i: int, n: int)
    requires Inverts(scan, format)
    requires FirstOutOfBounds(t, bad)
    requires i < n
    requires At(lines, pos, RenderCase(format, t))
    ensures ReadCases(scan, lines, pos, i, n) == Err(ObstacleOutOfBounds(bad + 1, i + 1))
  {
    CaseOutOfBounds(scan, format, lines, pos, t, bad, i + 1);
  }

  /** A well-formed case i is read and the error of a later case is passed on. */
  lemma PassCase(scan: Scanner, format: Formatter, lines: seq<string>, pos: nat, next: nat, t: CaseText,
                 i: int, n: int, e: ParseError)
    requires Inverts(scan, format)
    requires Sensible(t)
    requires i < n
    requires At(lines, pos, RenderCase(format, t)) && next == pos + |RenderCase(format, t)|
    requires ReadCases(scan, lines, next, i + 1, n) == Err(e)
    ensures ReadCases(scan, lines, pos, i, n) == Err(e)
  {
    CaseRoundTrip(scan, format, lines, pos, t, i + 1);
    ProviderLaws.CasesSkip(scan, lines, pos, i, n, Expected(t, i + 1), next, e);
  }

  lemma {:induction false} CasesOutOfBounds(scan: Scanner, format: Formatter, lines: seq<string>, pos: nat,
                                            ts: seq<CaseText>, i: nat, badCase: nat, bad: nat)
    requires Inverts(scan, format)
    requires i <= badCase < |ts|
    requires forall k :: 0 <= k < badCase ==> Sensible(ts[k])
    requires FirstOutOfBounds(ts[badCase], bad)
    requires At(lines, pos, RenderCases(format, ts, i))
    ensures ReadCases(scan, lines, pos, i, |ts|) == Err(ObstacleOutOfBounds(bad + 1, badCase + 1))
    decreases |ts| - i
  {
    NextCase(format, lines, pos, ts, i);
    if i == badCase {
      FailCase(scan, format, lines, pos, ts[i], bad, i, |ts|);
    } else {
      var next := pos + |RenderCase(format, ts[i])|;
      CasesOutOfBounds(scan, format, lines, next, ts, i + 1, badCase, bad);
      PassCase(scan, format, lines, pos, next, ts[i], i, |ts|, ObstacleOutOfBounds(bad + 1, badCase + 1));
    }
  }

  /** A rectangle with non-negative corners that reaches past its grid is
      reported as out of bounds, naming the obstacle and the case, and no
      case is returned. */
  lemma OutOfBoundsReported(scan: Scanner, format: Formatter, ts: seq<CaseText>, badCase: nat, bad: nat)
    requires Inverts(scan, format)
    requires badCase < |ts|
    requires forall k :: 0 <= k < badCase ==> Sensible(ts[k])
    requires FirstOutOfBounds(ts[badCase], bad)
    ensures Get(scan, Render(format, ts)) == Err(ObstacleOutOfBounds(bad + 1, badCase + 1))
  {
    var lines := Render(format, ts);
    FieldsOfFormat(scan, format, [|ts|]);
    assert At(lines, 0, lines) by {
      assert lines[0..|lines|] == lines;
    }
    AtSplit(lines, 0, [format([|ts|])], RenderCases(format, ts, 0));
    CasesOutOfBounds(scan, format, lines, 1, ts, 0, badCase, bad);
  }
}

=== FILE: solver_examples.dfy ===
/** The solver's test inputs (internal/race-track/application/case_solver_test.go)
    and what the model proves about each: a witness trajectory where the test
    expects a hop count, a closed region where it expects "No solution.", and
    a lower bound on the hops from how fast the vehicle can speed up. */
module SolverExamples {
  import opened Domain
  import opened CaseSolver

  // ---------------------------------------------------------------------
  // How far the vehicle can get
  // ---------------------------------------------------------------------

  function Min(a: int, b: int): int
  {
    if a < b then a else b
  }

  /** The longest distance along one axis covered in `n` hops from rest:
      the speed grows by at most one per hop and never exceeds the limit. */
  function Travel(n: nat): nat
  {
    if n == 0 then 0 else Travel(n - 1) + Min(n, MaxSpeed)
  }

  lemma {:induction false} TravelFormula(n: nat)
    requires n >= 2
    ensures Travel(n) == 3 * n - 3
  {
    if n > 2 {
      TravelFormula(n - 1);
    }
  }

  /** After i hops of a trajectory, each velocity component is at most
      min(i, 3) in size and each coordinate has moved by at most Travel(i). */
  lemma {:induction false} RunBounded(grid: seq<seq<bool>>, width: int, height: int, start: Node,
                                      path: seq<Config>, i: nat)
    requires Fits(grid, width, height)
    requires IsRun(grid, width, height, start, path)
    requires i < |path|
    ensures Abs(path[i].velocity.x) <= Min(i, MaxSpeed) && Abs(path[i].velocity.y) <= Min(i, MaxSpeed)
    ensures Abs(path[i].point.x - start.x) <= Travel(i) && Abs(path[i].point.y - start.y) <= Travel(i)
  {
    if i > 0 {
      RunBounded(grid, width, height, start, path, i - 1);
      assert Step(grid, width, height, path[i - 1], path[i]);
    }
  }

  /** No trajectory of n hops reaches a target further away than Travel(n). */
  lemma TooFar(grid: seq<seq<bool>>, width: int, height: int, start: Node, end: Node, n: nat)
    requires Fits(grid, width, height)
    requires Travel(n) < Abs(end.x - start.x) || Travel(n) < Abs(end.y - start.y)
    ensures !ReachesIn(grid, width, height, start, end, n)
  {
    if ReachesIn(grid, width, height, start, end, n) {
      var path: seq<Config> :| IsRun(grid, width, height, start, path) && |path| == n + 1 && path[n].point == end;
      RunBounded(grid, width, height, start, path, n);
    }
  }

  /** A found answer is at least as large as every hop count ruled out. */
  lemma AnswerAtLeast(grid: seq<seq<bool>>, width: int, height: int, start: Node, end: Node, n: nat, low: nat)
    requires Fits(grid, width, height)
    requires ReachesIn(grid, width, height, start, end, n)
    requires forall m: nat :: m < low ==> !ReachesIn(grid, width, height, start, end, m)
    ensures n >= low
  {
  }

  // ---------------------------------------------------------------------
  // The test grids (row-first, `grid[y][x]`, as the solver reads them)
  // ---------------------------------------------------------------------

  /** "Sample input provided 1": rows 2 and 3 blocked from x = 1 on. */
  const SampleOne: seq<seq<bool>> := seq(5, y => seq(5, x => (y == 2 || y == 3) && x >= 1))

  /** "Sample input provided 2": a cross of obstacles through the centre. */
  const SampleTwo: seq<seq<bool>> := seq(3, y => seq(3, x => x == 1 || y == 1))

  /** "Single Obstacle next to start": only (1, 0) is blocked. */
  const SingleObstacle: seq<seq<bool>> := seq(2, y => seq(2, x => x == 1 && y == 0))

  /** "Blocked Path": the middle row is a wall. */
  const BlockedPath: seq<seq<bool>> := seq(3, y => seq(3, x => y == 1))

  /** An obstacle-free square of side n. */
  function Empty(n: nat): (g: seq<seq<bool>>)
    ensures Fits(g, n, n)
    ensures forall y, x :: 0 <= y < n && 0 <= x < n ==> !g[y][x]
  {
    seq(n, _ => seq(n, _ => false))
  }

  function C(x: int, y: int, vx: int, vy: int): Config
  {
    Config(Node(x, y), Node(vx, vy))
  }

  // ---------------------------------------------------------------------
  // Sample 1: seven hops around the wall
  // ---------------------------------------------------------------------

  /** Left along the top row, down the free first column, then right along
      the bottom row. */
  lemma SampleOneInSeven()
    ensures ReachesIn(SampleOne, 5, 5, Node(4, 0), Node(4, 4), 7)
  {
    var path := [C(4, 0, 0, 0), C(3, 0, -1, 0), C(1, 0, -2, 0), C(0, 1, -1, 1),
                 C(0, 3, 0, 2), C(1, 4, 1, 1), C(2, 4, 1, 0), C(4, 4, 2, 0)];
    forall i | 0 <= i < |path| - 1
      ensures Step(SampleOne, 5, 5, path[i], path[i + 1])
    {
    }
    assert IsRun(SampleOne, 5, 5, Node(4, 0), path);
  }

  /** What one hop of a trajectory on Sample 1 guarantees: the velocity is
      the move just made, it changed by at most one, and the cell reached is
      on the grid and free. */
  lemma SampleOneHop(path: seq<Config>, i: nat)
    requires IsRun(SampleOne, 5, 5, Node(4, 0), path)
    requires 0 < i < |path|
    ensures path[i].velocity.x == path[i].point.x - path[i - 1].point.x
    ensures path[i].velocity.y == path[i].point.y - path[i - 1].point.y
    ensures Abs(path[i].velocity.x - path[i - 1].velocity.x) <= 1
    ensures Abs(path[i].velocity.y - path[i - 1].velocity.y) <= 1
    ensures path[i].velocity.x <= MaxSpeed
    ensures 0 <= path[i].point.x < 5 && 0 <= path[i].point.y < 5
    ensures (path[i].point.y == 2 || path[i].point.y == 3) ==> path[i].point.x == 0
  {
    assert Step(SampleOne, 5, 5, path[i - 1], path[i]);
    var p := path[i].point;
    assert !SampleOne[p.y][p.x];
  }

  /** Rows 2 and 3 are free only in the first column, and the vehicle cannot
      jump over both of them from rest, so every trajectory to the bottom row
      passes through the first column. */
  lemma SampleOneEntersFirstColumn(path: seq<Config>) returns (j: nat)
    requires IsRun(SampleOne, 5, 5, Node(4, 0), path)
    requires path[|path| - 1].point.y == 4
    ensures j < |path| && path[j].point.x == 0
  {
    j := 0;
    while path[j].point.y < 2
      invariant j < |path|
      invariant forall i :: 0 <= i < j ==> path[i].point.y < 2
      decreases |path| - j
    {
      j := j + 1;
    }
    assert path[j - 1].point.y < 2;
    SampleOneHop(path, j);
    if j >= 2 {
      SampleOneHop(path, j - 1);
      SampleOneHop(path, j - 2);
    }
  }

  /** After j more hops from a moment when the vehicle moved left, its speed
      to the right is at most j - 1 and it has gained at most Travel(j - 1)
      to the right. */
  lemma {:induction false} SlowStart(path: seq<Config>, t: nat, j: nat)
    requires IsRun(SampleOne, 5, 5, Node(4, 0), path)
    requires 0 < t && t + j < |path|
    requires path[t].velocity.x <= -1
    ensures path[t + j].velocity.x <= j - 1
    ensures path[t + j].point.x - path[t].point.x <= (if j == 0 then 0 else Travel(j - 1))
  {
    if j > 0 {
      SlowStart(path, t, j - 1);
      SampleOneHop(path, t + j);
    }
  }

  /** The first visit to the first column comes after at least three hops
      (Travel(2) = 3 < 4) and while moving left. */
  lemma SampleOneFirstColumnLate(path: seq<Config>) returns (t: nat)
    requires IsRun(SampleOne, 5, 5, Node(4, 0), path)
    requires path[|path| - 1].point.y == 4
    ensures 3 <= t < |path| && path[t].point.x == 0 && path[t].velocity.x <= -1
    ensures forall i :: 0 <= i < t ==> path[i].point.x != 0
  {
    var j := SampleOneEntersFirstColumn(path);
    t := 0;
    while path[t].point.x != 0
      invariant t <= j
      invariant forall i :: 0 <= i < t ==> path[i].point.x != 0
      decreases j - t
    {
      t := t + 1;
    }
    SampleOneHop(path, t);
    if t > 1 {
      SampleOneHop(path, t - 1);
    }
    RunBounded(SampleOne, 5, 5, Node(4, 0), path, t);
  }

  /** Sample 1 takes at least seven hops: from the first visit to the first
      column, getting back four cells to the right takes at least four more
      hops (Travel(2) = 3 < 4 again). */
  lemma SampleOneAtLeastSeven(n: nat)
    requires ReachesIn(SampleOne, 5, 5, Node(4, 0), Node(4, 4), n)
    ensures n >= 7
  {
    var path: seq<Config> :| IsRun(SampleOne, 5, 5, Node(4, 0), path) && |path| == n + 1 && path[n].point == Node(4, 4);
    var t := SampleOneFirstColumnLate(path);
    SlowStart(path, t, n - t);
  }

  /** "Sample input provided 1": the answer is at least seven hops, and a
      seven-hop trajectory exists. */
  method SolveSampleOne() returns (answer: Answer)
    ensures answer.Hops? && answer.n >= 7
  {
    SampleOneInSeven();
    forall m: nat | m < 7
      ensures !ReachesIn(SampleOne, 5, 5, Node(4, 0), Node(4, 4), m)
    {
      if ReachesIn(SampleOne, 5, 5, Node(4, 0), Node(4, 4), m) {
        SampleOneAtLeastSeven(m);
      }
    }
    ghost var explored, pushes;
    answer, explored, pushes := Solve(SampleOne, Node(4, 0), Node(4, 4), 5, 5);
    AnswerAtLeast(SampleOne, 5, 5, Node(4, 0), Node(4, 4), answer.n, 7);
  }

  // ---------------------------------------------------------------------
  // Sample 2 and the blocked path: "No solution."
  // ---------------------------------------------------------------------

  /** From the top-left corner of the cross every hop lands on an obstacle or
      off the grid, except staying put. */
  lemma SampleTwoUnreachable()
    ensures forall n: nat :: !ReachesIn(SampleTwo, 3, 3, Node(0, 0), Node(2, 2), n)
  {
    var s := {Initial(Node(0, 0))};
    forall c, t | c in s && Step(SampleTwo, 3, 3, c, t)
      ensures t in s
    {
      assert -1 <= t.velocity.x <= 1 && -1 <= t.velocity.y <= 1;
      assert t.point == t.velocity;
    }
    ClosedSetBlocks(SampleTwo, 3, 3, Node(0, 0), Node(2, 2), s);
  }

  method SolveSampleTwo() returns (answer: Answer)
    ensures answer == NoSolution
  {
    SampleTwoUnreachable();
    ghost var explored, pushes;
    answer, explored, pushes := Solve(SampleTwo, Node(0, 0), Node(2, 2), 3, 3);
  }

  /** The configurations on the top row with no vertical speed. */
  function TopRow(): set<Config>
  {
    set x, vx | 0 <= x < 3 && -3 <= vx <= 3 :: C(x, 0, vx, 0)
  }

  /** Below the top row lies a wall and above it the edge, so a vehicle on
      the top row never gains vertical speed. */
  lemma BlockedPathUnreachable()
    ensures forall n: nat :: !ReachesIn(BlockedPath, 3, 3, Node(0, 0), Node(2, 2), n)
  {
    var s := TopRow();
    assert Initial(Node(0, 0)) == C(0, 0, 0, 0);
    forall c, t | c in s && Step(BlockedPath, 3, 3, c, t)
      ensures t in s
    {
      assert c.point.y == 0 && c.velocity.y == 0;
      assert t.point.y == t.velocity.y;
      assert t == C(t.point.x, 0, t.velocity.x, 0);
    }
    ClosedSetBlocks(BlockedPath, 3, 3, Node(0, 0), Node(2, 2), s);
  }

  method SolveBlockedPath() returns (answer: Answer)
    ensures answer == NoSolution
  {
    BlockedPathUnreachable();
    ghost var explored, pushes;
    answer, explored, pushes := Solve(BlockedPath, Node(0, 0), Node(2, 2), 3, 3);
  }

  // ---------------------------------------------------------------------
  // One hop, three hops, eleven hops
  // ---------------------------------------------------------------------

  lemma SingleObstacleInOne()
    ensures ReachesIn(SingleObstacle, 2, 2, Node(0, 0), Node(1, 1), 1)
  {
    var path := [C(0, 0, 0, 0), C(1, 1, 1, 1)];
    assert Step(SingleObstacle, 2, 2, path[0], path[1]);
    assert IsRun(SingleObstacle, 2, 2, Node(0, 0), path);
  }

  /** The diagonal move past the obstacle: at least one hop, and one suffices. */
  method SolveSingleObstacle() returns (answer: Answer)
    ensures answer.Hops? && answer.n >= 1
  {
    SingleObstacleInOne();
    TooFar(SingleObstacle, 2, 2, Node(0, 0), Node(1, 1), 0);
    ghost var explored, pushes;
    answer, explored, pushes := Solve(SingleObstacle, Node(0, 0), Node(1, 1), 2, 2);
    AnswerAtLeast(SingleObstacle, 2, 2, Node(0, 0), Node(1, 1), answer.n, 1);
  }

  /** Speeds 1, 2, 1 along the diagonal of a 5 by 5 grid. */
  lemma CornerToCornerInThree()
    ensures ReachesIn(Empty(5), 5, 5, Node(0, 0), Node(4, 4), 3)
  {
    var g := Empty(5);
    var path := [C(0, 0, 0, 0), C(1, 1, 1, 1), C(3, 3, 2, 2), C(4, 4, 1, 1)];
    assert Step(g, 5, 5, path[0], path[1]);
    assert Step(g, 5, 5, path[1], path[2]);
    assert Step(g, 5, 5, path[2], path[3]);
    assert IsRun(g, 5, 5, Node(0, 0), path);
  }

  /** "Path with Maximum Speed Constraints": two hops cover at most three
      cells, so the answer is at least three hops. */
  method SolveCornerToCorner() returns (answer: Answer)
    ensures answer.Hops? && answer.n >= 3
  {
    CornerToCornerInThree();
    forall m: nat | m < 3
      ensures !ReachesIn(Empty(5), 5, 5, Node(0, 0), Node(4, 4), m)
    {
      TooFar(Empty(5), 5, 5, Node(0, 0), Node(4, 4), m);
    }
    ghost var explored, pushes;
    answer, explored, pushes := Solve(Empty(5), Node(0, 0), Node(4, 4), 5, 5);
    AnswerAtLeast(Empty(5), 5, 5, Node(0, 0), Node(4, 4), answer.n, 3);
  }

  /** Speeds 1, 2, 3, ..., 3, 2 along the diagonal of a 30 by 30 grid. */
  lemma LargeGridInEleven()
    ensures ReachesIn(Empty(30), 30, 30, Node(0, 0), Node(29, 29), 11)
  {
    var g := Empty(30);
    var path := [C(0, 0, 0, 0), C(1, 1, 1, 1), C(3, 3, 2, 2), C(6, 6, 3, 3), C(9, 9, 3, 3),
                 C(12, 12, 3, 3), C(15, 15, 3, 3), C(18, 18, 3, 3), C(21, 21, 3, 3),
                 C(24, 24, 3, 3), C(27, 27, 3, 3), C(29, 29, 2, 2)];
    forall i | 0 <= i < |path| - 1
      ensures Step(g, 30, 30, path[i], path[i + 1])
    {
    }
    assert IsRun(g, 30, 30, Node(0, 0), path);
  }

  /** Ten hops cover at most 27 cells of the 29 needed. */
  lemma LargeGridNotInTen(m: nat)
    requires m <= 10
    ensures !ReachesIn(Empty(30), 30, 30, Node(0, 0), Node(29, 29), m)
  {
    if m >= 2 {
      TravelFormula(m);
    }
    TooFar(Empty(30), 30, 30, Node(0, 0), Node(29, 29), m);
  }

  /** "Large Empty Grid": the answer is at least eleven hops. */
  method SolveLargeGrid() returns (answer: Answer)
    ensures answer.Hops? && answer.n >= 11
  {
    LargeGridInEleven();
    forall m: nat | m < 11
      ensures !ReachesIn(Empty(30), 30, 30, Node(0, 0), Node(29, 29), m)
    {
      LargeGridNotInTen(m);
    }
    ghost var explored, pushes;
    answer, explored, pushes := Solve(Empty(30), Node(0, 0), Node(29, 29), 30, 30);
    AnswerAtLeast(Empty(30), 30, 30, Node(0, 0), Node(29, 29), answer.n, 11);
  }

  /** The distance estimate is not a lower bound on the hops: it counts
      cells, while one hop can cross up to three. */
  lemma HeuristicNotAdmissible()
    ensures Heuristic(Node(0, 0), Node(29, 29)) == 58
    ensures ReachesIn(Empty(30), 30, 30, Node(0, 0), Node(29, 29), 11)
  {
    LargeGridInEleven();
  }

  /** "Minimum Grid Size" and "Start Equals End". */
  method SolveStartIsEnd() returns (small: Answer, square: Answer)
    ensures small == Hops(0) && square == Hops(0)
  {
    ghost var explored, pushes;
    small, explored, pushes := Solve(Empty(1), Node(0, 0), Node(0, 0), 1, 1);
    square, explored, pushes := Solve(Empty(3), Node(1, 1), Node(1, 1), 3, 3);
  }
}

=== FILE: text.dfy ===
/** Decimal rendering of numbers, as used by the result and error messages. */
module Text {

  predicate IsDigit(c: char)
  {
    '0' <= c <= '9'
  }

  function DigitChar(d: nat): (c: char)
    requires d < 10
    ensures IsDigit(c)
  {
    "0123456789"[d]
  }

  function DigitValue(c: char): nat
    requires IsDigit(c)
  {
    c as int - '0' as int
  }

  /** The shortest decimal spelling of `n`, as `%d` prints a non-negative int. */
  function NatToString(n: nat): (s: string)
    ensures |s| >= 1
    ensures forall i :: 0 <= i < |s| ==> IsDigit(s[i])
    ensures |s| > 1 ==> s[0] != '0'
    decreases n
  {
    if n < 10 then [DigitChar(n)] else NatToString(n / 10) + [DigitChar(n % 10)]
  }

  /** `%d` of an arbitrary int: a minus sign before the magnitude when negative. */
  function IntToString(i: int): string
  {
    if i < 0 then "-" + NatToString(-i) else NatToString(i)
  }

  /** Reads back a string of decimal digits; the empty string reads as 0. */
  function DigitsValue(s: string): nat
    requires forall i :: 0 <= i < |s| ==> IsDigit(s[i])
  {
    if |s| == 0 then 0 else DigitsValue(s[..|s| - 1]) * 10 + DigitValue(s[|s| - 1])
  }

  lemma DigitRoundTrip(d: nat)
    requires d < 10
    ensures DigitValue(DigitChar(d)) == d
  {
  }

  /** Reading the printed digits back gives the number again, so the
      rendering loses nothing. */
  lemma {:induction false} NatToStringRoundTrip(n: nat)
    ensures DigitsValue(NatToString(n)) == n
    decreases n
  {
    var s := NatToString(n);
    if n < 10 {
      DigitRoundTrip(n);
      assert s[..|s| - 1] == [];
    } else {
      NatToStringRoundTrip(n / 10);
      DigitRoundTrip(n % 10);
      assert s[..|s| - 1] == NatToString(n / 10);
    }
  }

  /** A printed int is a digit or a minus sign, followed by digits only. */
  lemma IntToStringShape(a: int)
    ensures |IntToString(a)| >= 1
    ensures IsDigit(IntToString(a)[0]) <==> a >= 0
    ensures forall i :: 1 <= i < |IntToString(a)| ==> IsDigit(IntToString(a)[i])
  {
    if a < 0 {
      var s := NatToString(-a);
      assert forall i :: 1 <= i < |"-" + s| ==> ("-" + s)[i] == s[i - 1];
    }
  }

  /** Different ints print differently. */
  lemma IntToStringInjective(a: int, b: int)
    requires IntToString(a) == IntToString(b)
    ensures a == b
  {
    IntToStringShape(a);
    IntToStringShape(b);
    if a < 0 {
      var x, y := NatToString(-a), NatToString(-b);
      assert x == ("-" + x)[1..] == ("-" + y)[1..] == y;
      NatToStringInjective(-a, -b);
    } else {
      NatToStringInjective(a, b);
    }
  }

  lemma NatToStringInjective(m: nat, n: nat)
    requires NatToString(m) == NatToString(n)
    ensures m == n
  {
    NatToStringRoundTrip(m);
    NatToStringRoundTrip(n);
  }

  /** A printed int followed by text that does not start with a digit can be
      split back in one way only: the number and the text are recovered. */
  lemma NumberThenText(a: int, q: string, b: int, r: string)
    requires IntToString(a) + q == IntToString(b) + r
    requires |q| > 0 ==> !IsDigit(q[0])
    requires |r| > 0 ==> !IsDigit(r[0])
    ensures a == b && q == r
  {
    var s, t := IntToString(a), IntToString(b);
    IntToStringShape(a);
    IntToStringShape(b);
    assert s == (s + q)[..|s|] == (t + r)[..|t|] == t;
    assert q == (s + q)[|s|..] == (t + r)[|t|..] == r;
    IntToStringInjective(a, b);
  }
}
